=== FILE: README.md ===
# Delivery Pipeline view: a Dafny model

This project models the core of the Jenkins Delivery Pipeline (build timeline)
plugin, package `uw.iyyuan.jenkins.timeline`. It covers three parts:

- **Downstream graph resolution** (`ProjectUtil`). `DownstreamProjects` builds
  the edge list of one job. It concatenates every relationship resolver's
  answer, sets the job's own downstream jobs aside, appends the jobs named by
  "trigger/call builds" steps of post-build scripts, then puts the set-aside
  jobs back. `GetAllDownstreamProjects` walks these edges depth first from a
  first job, bounded by an optional last job, into an insertion-ordered map.
  `GetProjects` finds first jobs with a regular expression.
- **Failed-first sorting** (`FailedJobComparator`). Components whose first
  pipeline holds a failed task come before the others. Within each group the
  latest-activity comparator decides.
- **The view** (`DeliveryPipelineView`). This covers:
  - the legacy sorter name;
  - rewriting the component specs when a job is renamed or deleted;
  - assembling, numbering, sorting and trimming the components of `getPipelines`;
  - the rebuild cause list;
  - the trigger-failure message;
  - display defaults and form validation.

Supporting modules:

- `Basics`: optional values for Java's null, results for thrown exceptions,
  `Collections.reverse`.
- `Domain`: jobs, statuses, tasks, stages, pipelines and components.
- `JavaStrings`: `indexOf`, `replaceAll("\\s", "")`, `split(",")`, `trim` and
  `Integer.parseInt`, each with Java's edge cases.
- `StableSort`: `Collections.sort` as a stable insertion sort, plus the
  `Comparator` contract.

A job is identified by its full name. Jenkins is a parameter of the model, made
of uninterpreted functions:

- job lookup;
- the resolvers, the publishers and `findNearest`;
- the regular-expression engine, as a compiled pattern with a group count, a
  `find` test and group 1;
- the iteration order of a `HashMap`;
- the registry of sorters;
- pipeline extraction;
- whether the request is full-screen.

The downstream walk runs over a finite `map<Job, seq<Job>>` of edge lists. Its
termination measure is the set of jobs not yet visited.

## Model

| member | source | states |
|---|---|---|
| ProjectUtil.NumberOfDownstreamJobs | src/main/java/uw/iyyuan/jenkins/timeline/util/ProjectUtil.java:268-275 | The counting loop returns exactly the number of the job's own downstream jobs. |
| ProjectUtil.PopLast | src/main/java/uw/iyyuan/jenkins/timeline/util/ProjectUtil.java:123-130 | Removing the last element k times succeeds exactly when k is at most the list size; otherwise `remove(-1)` throws. The list keeps its first n-k elements, and the removed ones arrive in reverse order. |
| ProjectUtil.ConfigTokens | src/main/java/uw/iyyuan/jenkins/timeline/util/ProjectUtil.java:155 | After removing `\s` and splitting on ',', no token holds a comma or a whitespace character. |
| ProjectUtil.TokenJobs | src/main/java/uw/iyyuan/jenkins/timeline/util/ProjectUtil.java:157-164 | The lookup throws a null dereference exactly when some token resolves to no job. Otherwise the kept jobs are exactly the tokens whose nearest job has that token as its full name. |
| ProjectUtil.TokenJobsIsFlatMap | src/main/java/uw/iyyuan/jenkins/timeline/util/ProjectUtil.java:157-164 | The lookup loop is the in-order scan of the names, one name at a time. |
| ProjectUtil.TokenJobsSingle | src/main/java/uw/iyyuan/jenkins/timeline/util/ProjectUtil.java:157-164 | One name contributes the job it names exactly, nothing when the nearest job has another name, or the null dereference when nothing is found. |
| ProjectUtil.TokenJobsAppend | src/main/java/uw/iyyuan/jenkins/timeline/util/ProjectUtil.java:157-164 | The names of a + b contribute a's jobs in order, then b's, repetitions included. The first name that resolves to nothing, from a before b, throws. |
| ProjectUtil.FlatMap | src/main/java/uw/iyyuan/jenkins/timeline/util/ProjectUtil.java:139-185 | Nested scans over publishers, steps and configs succeed only when every part does. Every job collected comes from one of the parts. |
| ProjectUtil.FlatMapSingle | src/main/java/uw/iyyuan/jenkins/timeline/util/ProjectUtil.java:139-185 | Scanning one part gives exactly that part's answer: its exception, or all of its jobs. |
| ProjectUtil.FlatMapAppend | src/main/java/uw/iyyuan/jenkins/timeline/util/ProjectUtil.java:139-185 | Scanning a + b gives all of a's jobs in order, then all of b's. The first exception, from a before b, is the answer when there is one. |
| ProjectUtil.TriggerJobsMatchExactly | src/main/java/uw/iyyuan/jenkins/timeline/util/ProjectUtil.java:139-185 | Every job a trigger step contributes was found by `findNearest` under exactly its own full name. |
| ProjectUtil.DownstreamProjects | src/main/java/uw/iyyuan/jenkins/timeline/util/ProjectUtil.java:114-195 | With R the resolver outputs and k the own downstream count, the edge list is R[..n-k] + T + R[n-k..], where T is the trigger-step jobs in scan order. It fails exactly when k > \|R\| or the trigger scan fails. |
| Basics.ReverseReverse | src/main/java/uw/iyyuan/jenkins/timeline/util/ProjectUtil.java:187-191 | Reversing the popped block restores the order it had before it was popped. |
| ProjectUtil.Visit | src/main/java/uw/iyyuan/jenkins/timeline/util/ProjectUtil.java:89-112 | The map only grows, and the start job ends up in it. An already visited job leaves the map unchanged. A job named like `last` is inserted and not expanded. Distinct entries stay distinct, and a new job is inserted right after the previous entries. |
| ProjectUtil.VisitDownstream | src/main/java/uw/iyyuan/jenkins/timeline/util/ProjectUtil.java:107-109 | After the loop over the edge list, every remaining successor is in the map, and the map has only grown. |
| ProjectUtil.AddAllDownstreamProjects | src/main/java/uw/iyyuan/jenkins/timeline/util/ProjectUtil.java:89-98 | A null or already visited `first` returns the map unchanged. Otherwise `first` is added and every earlier entry survives. |
| ProjectUtil.GetAllDownstreamProjects | src/main/java/uw/iyyuan/jenkins/timeline/util/ProjectUtil.java:72-76 | Starting from an empty map, the result has no duplicates. It is empty exactly when `first` is null, and otherwise starts with `first`. |
| ProjectUtil.AllDownstreamProjectsAreReachable | src/main/java/uw/iyyuan/jenkins/timeline/util/ProjectUtil.java:89-112 | A job is collected if and only if it is reachable from `first` along downstream edges without passing through the last job. |
| ProjectUtil.AllDownstreamProjectsAreClosed | src/main/java/uw/iyyuan/jenkins/timeline/util/ProjectUtil.java:105-109 | Every newly collected job other than the last job has all of its downstream jobs collected. |
| ProjectUtil.AddedProjectsAreReachable | src/main/java/uw/iyyuan/jenkins/timeline/util/ProjectUtil.java:100-109 | With a non-empty starting map, every job the walk adds is reachable from `first` without passing through the last job. |
| ProjectUtil.FirstNotIn | src/main/java/uw/iyyuan/jenkins/timeline/util/ProjectUtil.java:107-109 | The first downstream job not yet collected: it is one of the edges and not collected, and when there is none every edge is collected. |
| ProjectUtil.VisitDownstreamHead | src/main/java/uw/iyyuan/jenkins/timeline/util/ProjectUtil.java:107-109 | The loop over the downstream jobs adds first the first of them that is not yet collected. |
| ProjectUtil.Deepest | src/main/java/uw/iyyuan/jenkins/timeline/util/ProjectUtil.java:107-109 | The point where the walk resumes: the deepest collected job that is not the last job and still has an uncollected downstream job, and none deeper has one. When there is none, no job in the range is unfinished. |
| ProjectUtil.VisitDepthFirst | src/main/java/uw/iyyuan/jenkins/timeline/util/ProjectUtil.java:89-112 | One recursive call lists its jobs in depth-first preorder. After each job comes the first uncollected downstream job of the deepest unfinished call: the job just added when it has one, otherwise the innermost caller whose loop still has a job to visit. |
| ProjectUtil.AllDownstreamProjectsInDepthFirstOrder | src/main/java/uw/iyyuan/jenkins/timeline/util/ProjectUtil.java:72-112 | The whole walk lists its jobs in that depth-first preorder, resuming after a dead end in the innermost unfinished call. When it stops, no collected job other than the last job has an uncollected downstream job. |
| ProjectUtil.DepthFirstOrderIsUnique | src/main/java/uw/iyyuan/jenkins/timeline/util/ProjectUtil.java:72-112 | Two complete depth-first listings from the same first job are equal. |
| ProjectUtil.AllDownstreamProjectsAreTheDepthFirstOrder | src/main/java/uw/iyyuan/jenkins/timeline/util/ProjectUtil.java:72-112 | Any list that starts at `first`, follows the depth-first preorder and is complete is exactly what `getAllDownstreamProjects(first, last)` returns. So any other order, breadth-first or otherwise, is ruled out. |
| ProjectUtil.GetProjects | src/main/java/uw/iyyuan/jenkins/timeline/util/ProjectUtil.java:201-221 | A syntax error, or a pattern without groups, yields the empty map. Every key maps to a registry job whose name the pattern finds, with group 1 equal to the key. |
| ProjectUtil.GetProjectsKeys | src/main/java/uw/iyyuan/jenkins/timeline/util/ProjectUtil.java:205-215 | The keys are exactly the group-1 captures of the jobs the pattern finds. Jobs without a match are skipped. |
| ProjectUtil.GetProjectsLastMatchWins | src/main/java/uw/iyyuan/jenkins/timeline/util/ProjectUtil.java:205-210 | When several jobs capture the same name, the map holds the last of them in iteration order. |
| JavaStrings.RemoveWhitespace | src/main/java/uw/iyyuan/jenkins/timeline/util/ProjectUtil.java:172 | `replaceAll("\\s", "")` leaves no `\s` character and never lengthens the string. |
| JavaStrings.RemoveWhitespaceCounts | src/main/java/uw/iyyuan/jenkins/timeline/util/ProjectUtil.java:172 | Every character that is not `\s` is kept as often as it occurred. |
| JavaStrings.RemoveWhitespaceKeepsOrder | src/main/java/uw/iyyuan/jenkins/timeline/util/ProjectUtil.java:172 | The removal distributes over concatenation, so the kept characters stay in their order. |
| JavaStrings.RemoveWhitespaceKeepsClean | src/main/java/uw/iyyuan/jenkins/timeline/util/ProjectUtil.java:172 | A string without `\s` characters is returned exactly as it is. |
| JavaStrings.Split | src/main/java/uw/iyyuan/jenkins/timeline/util/ProjectUtil.java:155 | `split(",")` of a string without a comma is the string itself, so an empty list of names gives one empty name. Otherwise no piece holds a comma, every character comes from the input, and no trailing piece is empty. |
| JavaStrings.SplitRoundTrip | src/main/java/uw/iyyuan/jenkins/timeline/util/ProjectUtil.java:172 | Joining the tokens of `split(",")` with ',' gives the input up to its trailing separators, which are all that `split` drops. |
| FailedJobComparator.FirstPipeline | src/main/java/uw/iyyuan/jenkins/timeline/sort/FailedJobComparator.java:41-47 | There is a first pipeline exactly when the component is non-null and has pipelines, and then it is the first of them. |
| FailedJobComparator.ScanForFailedJob | src/main/java/uw/iyyuan/jenkins/timeline/sort/FailedJobComparator.java:49-60 | The early-exit scan answers true if and only if some task of some stage has a failed status. A null pipeline answers false. |
| FailedJobComparator.NoPipelinesNotFailing | src/main/java/uw/iyyuan/jenkins/timeline/sort/FailedJobComparator.java:41-50 | A component without pipelines never counts as failed. |
| FailedJobComparator.Compare | src/main/java/uw/iyyuan/jenkins/timeline/sort/FailedJobComparator.java:31-39 | If only o1 has a failed task, the answer is -1; if only o2 has one, it is 1. Otherwise the latest-activity comparator decides. |
| FailedJobComparator.CompareIsComparator | src/main/java/uw/iyyuan/jenkins/timeline/sort/FailedJobComparator.java:31-38 | If the latest-activity comparator keeps the `Comparator` contract, so does the failed-first comparator. The contract is antisymmetry of signs, transitivity, and ties that compare alike. |
| FailedJobComparator.SortFailedFirst | src/main/java/uw/iyyuan/jenkins/timeline/sort/FailedJobComparator.java:31-38 | Sorting with it keeps every component and puts every failing component before every non-failing one. Within each group it follows the latest-activity order. |
| StableSort.Sort | src/main/java/uw/iyyuan/jenkins/timeline/DeliveryPipelineView.java:608 | `Collections.sort` returns a permutation of its input. |
| StableSort.SortIsSorted | src/main/java/uw/iyyuan/jenkins/timeline/DeliveryPipelineView.java:608 | For a comparator that keeps the contract, the sorted list is in comparator order. |
| StableSort.SortIsStable | src/main/java/uw/iyyuan/jenkins/timeline/DeliveryPipelineView.java:608 | `Collections.sort` is stable: for every x, the elements that compare equal to x appear in the sorted list in the same order as in the input. |
| StableSort.SortKeepsSortedList | src/main/java/uw/iyyuan/jenkins/timeline/DeliveryPipelineView.java:608 | A list already in comparator order is left exactly as it is. |
| DeliveryPipelineView.NormalizeSorting | src/main/java/uw/iyyuan/jenkins/timeline/DeliveryPipelineView.java:161-176 | The legacy `NoOpComparator` class name becomes "none". Any other value, null included, is kept. |
| DeliveryPipelineView.SetSorting | src/main/java/uw/iyyuan/jenkins/timeline/DeliveryPipelineView.java:169-176 | The stored sorter is never the legacy name, any other value is stored as given, and no other setting changes. |
| DeliveryPipelineView.GetSorting | src/main/java/uw/iyyuan/jenkins/timeline/DeliveryPipelineView.java:161-167 | A stored legacy name reads back as "none", any other value reads back as stored, and the field is rewritten to what is returned. |
| DeliveryPipelineView.SortingRoundTrip | src/main/java/uw/iyyuan/jenkins/timeline/DeliveryPipelineView.java:161-176 | Reading after setting returns the value set, except that the legacy name reads back as "none". Reading twice gives the same answer. |
| DeliveryPipelineView.GetUpdateInterval | src/main/java/uw/iyyuan/jenkins/timeline/DeliveryPipelineView.java:250-258 | The interval read is never 0. A stored 0 reads as 60 and is written back, and any other value is returned unchanged. |
| DeliveryPipelineView.UpdateIntervalStable | src/main/java/uw/iyyuan/jenkins/timeline/DeliveryPipelineView.java:250-258 | Reading the interval again changes nothing further. |
| JavaStrings.Trim | src/main/java/uw/iyyuan/jenkins/timeline/DeliveryPipelineView.java:265 | `trim()` is empty exactly when every character is at most U+0020. |
| DeliveryPipelineView.BlankToNull | src/main/java/uw/iyyuan/jenkins/timeline/DeliveryPipelineView.java:264-270 | A style sheet becomes null exactly when it is null or consists only of characters up to U+0020. Otherwise it is kept. |
| DeliveryPipelineView.SetFullScreenCss | src/main/java/uw/iyyuan/jenkins/timeline/DeliveryPipelineView.java:264-270 | The full-screen style sheet is stored as given unless it is blank after trimming, in which case null is stored. No other setting changes. |
| DeliveryPipelineView.SetEmbeddedCss | src/main/java/uw/iyyuan/jenkins/timeline/DeliveryPipelineView.java:276-282 | The same for the embedded style sheet. |
| DeliveryPipelineView.GetTheme | src/main/java/uw/iyyuan/jenkins/timeline/DeliveryPipelineView.java:289-291 | A null theme reads as "default", and any other theme as itself. |
| DeliveryPipelineView.NewViewSettings | src/main/java/uw/iyyuan/jenkins/timeline/DeliveryPipelineView.java:87-134 | A new view has sorter "none", interval 60 and theme "default". It has no visible-count limit, paging on and 5 pipelines per component. |
| DeliveryPipelineView.RenameSpecs | src/main/java/uw/iyyuan/jenkins/timeline/DeliveryPipelineView.java:305-326 | A rename keeps the list's length, order and names, and replaces every first or last job equal to the old name. A deletion throws `IllegalStateException` exactly when some spec names the job in both fields. |
| DeliveryPipelineView.RenameBackRestores | src/main/java/uw/iyyuan/jenkins/timeline/DeliveryPipelineView.java:305-326 | Renaming old to new and then new to old restores the spec list, provided the new name was unused. |
| DeliveryPipelineView.DeleteAsWrittenRemovesReferences | src/main/java/uw/iyyuan/jenkins/timeline/DeliveryPipelineView.java:311-322 | When no spec names the deleted job twice, the loop removes exactly the specs that name it and keeps the others in order. |
| DeliveryPipelineView.DeleteOfSingleJobComponentThrows | src/main/java/uw/iyyuan/jenkins/timeline/DeliveryPipelineView.java:311-322 | Deleting "x" when a spec has "x" as both first and last job throws, and a later spec naming "x" survives. |
| DeliveryPipelineView.RemoveReferencesKeepsTheOthers | src/main/java/uw/iyyuan/jenkins/timeline/DeliveryPipelineView.java:311-322 | The intended deletion keeps exactly the specs that do not name the job, each as often as before. |
| DeliveryPipelineView.RemoveReferencesKeepsOrder | src/main/java/uw/iyyuan/jenkins/timeline/DeliveryPipelineView.java:307-322 | The intended deletion distributes over concatenation, so the kept specs stay in their order. |
| DeliveryPipelineView.OnProjectRenamed | src/main/java/uw/iyyuan/jenkins/timeline/DeliveryPipelineView.java:305-326 | A view without specs is unchanged. Otherwise only the spec list changes, to the rewritten list, and a rename never throws. With no new name this is `onDeleted` as written, including the throw described under Findings. |
| DeliveryPipelineView.OnProjectDeleted | src/main/java/uw/iyyuan/jenkins/timeline/DeliveryPipelineView.java:868-871 | The corrected deletion of the Findings row, not `onDeleted` as written. After the job is deleted, no spec names it, every spec that did not name it is kept, and nothing else changes. |
| DeliveryPipelineView.LatestRequestFor | src/main/java/uw/iyyuan/jenkins/timeline/DeliveryPipelineView.java:633-639 | Paging is requested exactly when it is enabled and the view is not full-screen. |
| DeliveryPipelineView.GetComponent | src/main/java/uw/iyyuan/jenkins/timeline/DeliveryPipelineView.java:624-642 | The component carries the given name, first job and number. When shown, the aggregated pipeline comes first, followed by the latest pipelines. It never fails when pipeline extraction does not throw. |
| DeliveryPipelineView.SpecComponents | src/main/java/uw/iyyuan/jenkins/timeline/DeliveryPipelineView.java:582-593 | One component per spec, numbered by position from 1, named after the spec and starting from its resolved first job. Each is exactly the component `getComponent` builds from the spec's name, resolved first job and resolved last job. The loop fails when some first job is unresolved. |
| DeliveryPipelineView.SpecComponentsFailAtFirstFailure | src/main/java/uw/iyyuan/jenkins/timeline/DeliveryPipelineView.java:582-593 | The first spec whose component cannot be built decides the error: "Could not find project: " for an unresolved first job, or the exception of its pipeline extraction. |
| DeliveryPipelineView.SpecComponentsSucceed | src/main/java/uw/iyyuan/jenkins/timeline/DeliveryPipelineView.java:582-593 | When every spec's component can be built, the loop completes. |
| DeliveryPipelineView.FirstMissingProjectIsReported | src/main/java/uw/iyyuan/jenkins/timeline/DeliveryPipelineView.java:586-591 | The first unresolved first job aborts the loop with "Could not find project: " + its name. |
| DeliveryPipelineView.MatchComponents | src/main/java/uw/iyyuan/jenkins/timeline/DeliveryPipelineView.java:597-602 | The matches of one regular expression become components numbered 1, 2, … in entry order. Each is named by its entry key, starts from its entry job, and is exactly what `getComponent` builds with no last job. |
| DeliveryPipelineView.RegexpComponents | src/main/java/uw/iyyuan/jenkins/timeline/DeliveryPipelineView.java:594-604 | There is one block per regular expression, in configuration order. Each block is numbered from 1 anew and is the block `MatchComponents` builds from that expression's matches. |
| DeliveryPipelineView.RegexpComponentsAreCaptures | src/main/java/uw/iyyuan/jenkins/timeline/DeliveryPipelineView.java:594-604 | Each regular-expression component starts from a registry job whose group-1 capture is the component's name. |
| DeliveryPipelineView.Assemble | src/main/java/uw/iyyuan/jenkins/timeline/DeliveryPipelineView.java:581-604 | Spec components come first: exactly the components the spec loop builds, numbered i+1 and named after their specs. The rest is the regular-expression blocks, flattened in configuration order; with no regular expressions there is no rest. An unresolved first job fails the assembly. |
| DeliveryPipelineView.Sorter | src/main/java/uw/iyyuan/jenkins/timeline/DeliveryPipelineView.java:605-607 | There is no sorting when the sorter is null or "none" (in either spelling). Otherwise the sorter is exactly what the registry finds under the (normalized) name, none when it finds nothing. |
| DeliveryPipelineView.LimitVisible | src/main/java/uw/iyyuan/jenkins/timeline/DeliveryPipelineView.java:611-614 | With a positive maximum the list is cut to its first min(size, max) elements, and otherwise it is unchanged. |
| DeliveryPipelineView.GetPipelines | src/main/java/uw/iyyuan/jenkins/timeline/DeliveryPipelineView.java:578-622 | On failure the list is empty and `error` holds the message. On success `error` is null and the legacy sorter name is rewritten. The list is drawn from the assembled components and has the trimmed length. It is a prefix of the assembled list when no sorter applies, and a prefix of the sorted list when one does. |
| DeliveryPipelineView.GetPipelinesSorted | src/main/java/uw/iyyuan/jenkins/timeline/DeliveryPipelineView.java:605-614 | A registered sorter that keeps the `Comparator` contract leaves the visible components in its order. |
| DeliveryPipelineView.GetPipelinesFailedFirst | src/main/java/uw/iyyuan/jenkins/timeline/DeliveryPipelineView.java:605-614 | With the failed-first sorter, no visible non-failing component precedes a failing one. If some failing component is cut off by the trim, every visible component is failing: failing components take the visible slots first. |
| DeliveryPipelineView.GetPipelinesReportsMissingProject | src/main/java/uw/iyyuan/jenkins/timeline/DeliveryPipelineView.java:578-622 | When a first job is missing, the view shows nothing and reports the first missing name. |
| DeliveryPipelineView.NonUserCausesKeepsTheOthers | src/main/java/uw/iyyuan/jenkins/timeline/DeliveryPipelineView.java:553-557 | Exactly the non-user causes are kept, each as often as before. |
| DeliveryPipelineView.NonUserCausesKeepOrder | src/main/java/uw/iyyuan/jenkins/timeline/DeliveryPipelineView.java:553-557 | The filter distributes over concatenation, so the kept causes stay in their order. |
| DeliveryPipelineView.NonUserCausesLeavesCleanList | src/main/java/uw/iyyuan/jenkins/timeline/DeliveryPipelineView.java:553-557 | A cause list without user causes is kept exactly as it is. |
| DeliveryPipelineView.RebuildCauses | src/main/java/uw/iyyuan/jenkins/timeline/DeliveryPipelineView.java:551-558 | The new cause list is the previous non-user causes in order, followed by exactly one user cause, which comes last. |
| JavaStrings.IndexOf | src/main/java/uw/iyyuan/jenkins/timeline/DeliveryPipelineView.java:574 | `indexOf` returns the first position of the character, or -1 exactly when it does not occur. |
| DeliveryPipelineView.WithoutFolderPrefix | src/main/java/uw/iyyuan/jenkins/timeline/DeliveryPipelineView.java:573-575 | A name with a '/' is its folder (without '/'), then '/', then the result. A name without one is returned whole. |
| DeliveryPipelineView.TriggerExceptionMessage | src/main/java/uw/iyyuan/jenkins/timeline/DeliveryPipelineView.java:563-571 | The failure message always comes first. The "Did you mean to specify …?" hint is appended if and only if the project name contains '/'. |
| JavaStrings.ParseIntToString | src/main/java/uw/iyyuan/jenkins/timeline/DeliveryPipelineView.java:733 | `Integer.parseInt` reads back every 32-bit value that `Integer.toString` prints. |
| DeliveryPipelineView.DoCheckUpdateInterval | src/main/java/uw/iyyuan/jenkins/timeline/DeliveryPipelineView.java:730-741 | The check accepts exactly the values that parse as a positive int. A non-integer gets "Value must be a integer", and zero or a negative value gets "Value must be greater that 0". |
| DeliveryPipelineView.UpdateIntervalCheckOfPrinted | src/main/java/uw/iyyuan/jenkins/timeline/DeliveryPipelineView.java:730-741 | A printed int is accepted exactly when it is positive. |
| DeliveryPipelineView.DoCheckRegexp | src/main/java/uw/iyyuan/jenkins/timeline/DeliveryPipelineView.java:778-794 | A null value, or a pattern with exactly one group, is accepted. Otherwise the message is the syntax-error, no-group or too-many-groups one, as the case may be. |
| DeliveryPipelineView.RejectedRegexpFindsNothing | src/main/java/uw/iyyuan/jenkins/timeline/util/ProjectUtil.java:201-221 | A regular expression the form rejects for its syntax or for lacking a group finds no components. |

## Findings

| source | as written | input that shows it | evidently intended | confidence | as-written member | corrected member |
|---|---|---|---|---|---|---|
| src/main/java/uw/iyyuan/jenkins/timeline/DeliveryPipelineView.java:311-322 | On deletion (`newName` null, from `onDeleted`), a spec whose first and last job are both the deleted job reaches `it.remove()` twice, and the second call throws `IllegalStateException`. The specs after it are never examined. | Specs [("a", "x", "x"), ("b", "x", null)], deleting "x": the loop throws and leaves [("b", "x", null)], which still names the deleted job. | Every spec naming the deleted job is removed once, and the others are kept in order. | high; not executed | DeliveryPipelineView.DeleteOfSingleJobComponentThrows | DeliveryPipelineView.RemoveReferencesKeepsTheOthers |

`RenameSpecs` models the loop as written. `OnProjectDeleted` uses the
corrected `RemoveReferences`.

## Left out

- `isQueued` is not modelled. It depends on the live build queue and on `BuildUtil.match`, which is not part of this model.
- `getProjectList` and `fillAllProjects` are not modelled. They are name-list expansion and form filling through Jenkins, outside the core.
- ProjectUtil.Visit: an exception thrown by `getDownstreamProjects` during the walk is not threaded through it. The walk runs over edge lists already computed, and `DownstreamProjects` models those exceptions on its own.
- ProjectUtil.GetProjects: a group 1 that exists but does not take part in the match (`group(1)` returning null) is modelled as a string key, not as a null key. A null regular expression (a `NullPointerException` from `Pattern.compile`) is not modelled.
- ProjectUtil.DownstreamProjects: the count of own downstream jobs is taken as the length of `getDownstreamProjects()`, which is what `NumberOfDownstreamJobs` proves the counting loop returns. A null publisher list is modelled as an empty one.
- The iteration order of the `HashMap` returned by `getProjects` is a host function (`entries`). The link from entries to components (`RegexpComponentsAreCaptures`) assumes only that every listed entry is an entry of the map. That each key of the map is listed exactly once is not assumed, so the number of regular-expression components is not tied to the number of keys.
- DeliveryPipelineView.SpecComponents: numbers come from the spec's position. `indexOf` compares by identity (`ComponentSpec` does not override `equals`), and a bound list never holds the same object twice.
- Null components, null pipeline lists, null stage lists and a null first-job name in a spec are not modelled. `firstPipeline`'s null component is modelled through `FirstPipeline`'s optional argument.
- JavaStrings.ParseInt: accepts ASCII digits only, while `Integer.parseInt` also accepts other Unicode decimal digits.
- StableSort.Sort: TimSort's "Comparison method violates its general contract" exception for a comparator that breaks the contract is not modelled. For a comparator that keeps the contract, the insertion sort is proved sorted (`SortIsSorted`) and stable (`SortIsStable`), as `Collections.sort` promises.
- The component carries its first job, not the job's short name, URL, parameterisation, paging settings and argument file that the Java constructor copies.
- Pipeline extraction (`Pipeline.extractPipeline`, `createPipelineAggregated`, `createPipelineLatest`) and `LatestActivityComparator` are not part of this model. They are host functions and a comparator parameter.
- The following are not modelled, because they are framework plumbing without logic of the plugin's own:
  - request handling (`isFullScreenView` beyond its result, `submit`, `doCreateItem`, `getApi`);
  - the `ListBoxModel` fill methods;
  - `getLastUpdated` (clock);
  - permission checks;
  - `scheduleBuild2` and `ManualTriggerFactory`;
  - logging;
  - `triggerManual`;
  - the plain getters and setters.
- The current user of `new Cause.UserIdCause()` is a parameter of `RebuildCauses`. Looking up the build by `Integer.parseInt(buildId)` is not modelled.

=== FILE: basics.dfy ===
/** Small shared vocabulary: optional values (Java's nullable references), results
    that carry a thrown exception, and a few sequence helpers. */
module Basics {

  /** A nullable Java reference: `None` stands for `null`. */
  datatype Option<+T> = None | Some(value: T)

  /** The outcome of a Java call that either returns a value or throws. */
  datatype Result<+T, +E> = Ok(value: T) | Err(error: E) {
    predicate IsFailure() {
      Err?
    }

    function PropagateFailure<U>(): Result<U, E>
      requires Err?
    {
      Err(error)
    }

    function Extract(): T
      requires Ok?
    {
      value
    }
  }

  /** No element occurs twice. */
  predicate Distinct<T(==)>(s: seq<T>) {
    forall i, j :: 0 <= i < j < |s| ==> s[i] != s[j]
  }

  /** `Collections.reverse`. */
  function Reverse<T>(s: seq<T>): (r: seq<T>)
    ensures |r| == |s|
    ensures forall i :: 0 <= i < |s| ==> r[i] == s[|s| - 1 - i]
  {
    if |s| == 0 then [] else [s[|s| - 1]] + Reverse(s[..|s| - 1])
  }

  lemma {:induction false} ReverseReverse<T>(s: seq<T>)
    ensures Reverse(Reverse(s)) == s
  {
    var r := Reverse(Reverse(s));
    assert |r| == |s|;
    forall i | 0 <= i < |s|
      ensures r[i] == s[i]
    {
      assert r[i] == Reverse(s)[|s| - 1 - i];
    }
  }

  /** Concatenation of a list of lists, in order (repeated `addAll`). */
  function Flatten<T>(ss: seq<seq<T>>): seq<T> {
    if |ss| == 0 then [] else Flatten(ss[..|ss| - 1]) + ss[|ss| - 1]
  }

  function Min(a: int, b: int): int {
    if a <= b then a else b
  }
}

=== FILE: delivery_pipeline_view.dfy ===
/** `DeliveryPipelineView`: the view's configuration (component specs, regular
    expressions naming first jobs, sorter, display settings) and the logic that
    turns it into the list of components on screen, keeps it consistent when jobs
    are renamed or deleted, and validates form input. Jenkins itself (job lookup,
    pipeline extraction, the registry of sorters, the current request) is the
    `Jenkins` parameter. */
module DeliveryPipelineView {
  import opened Basics
  import opened Domain
  import opened JavaStrings
  import opened StableSort
  import ProjectUtil
  import FailedJobComparator

  // ---------------------------------------------------------------------------
  // Defaults

  const DefaultInterval: int := 60
  const DefaultNoOfPipelines: int := 5
  const DefaultMaxNoOfPages: int := 5
  /** The class name older configurations stored for "no sorting". */
  const OldNoneSorter: string := "uw.iyyuan.jenkins.timeline.sort.NoOpComparator"
  const NoneSorter: string := "none"
  const DefaultTheme: string := "default"

  /** One configured component: a title, the job it starts from and an optional
      job it ends at, both by name. */
  datatype ComponentSpec = ComponentSpec(name: string, firstJob: string, lastJob: Option<string>)

  /** A regular expression whose first capture group names a component. */
  datatype RegExpSpec = RegExpSpec(regexp: string)

  /** The persisted settings of a view that the modelled logic reads or writes,
      plus the transient `error` of the last `getPipelines`. */
  datatype View = View(
    componentSpecs: Option<seq<ComponentSpec>>,
    regexpFirstJobs: Option<seq<RegExpSpec>>,
    noOfPipelines: int,
    showAggregatedPipeline: bool,
    sorting: Option<string>,
    fullScreenCss: Option<string>,
    embeddedCss: Option<string>,
    updateInterval: int,
    pagingEnabled: bool,
    maxNoOfPages: int,
    theme: Option<string>,
    maxNumberOfVisiblePipelines: int,
    error: Option<string>)

  /** A freshly constructed view, with the field initialisers of the class. */
  function NewView(): View {
    View(None, None, DefaultNoOfPipelines, false, Some(NoneSorter), None, None,
         DefaultInterval, true, DefaultMaxNoOfPages, Some(DefaultTheme), -1, None)
  }

  // ---------------------------------------------------------------------------
  // Sorting

  /** Replaces the legacy "no sorting" class name by `"none"`. */
  function NormalizeSorting(sorting: Option<string>): (r: Option<string>)
    ensures r != Some(OldNoneSorter)
    ensures sorting != Some(OldNoneSorter) ==> r == sorting
    ensures sorting == Some(OldNoneSorter) ==> r == Some(NoneSorter)
  {
    if sorting == Some(OldNoneSorter) then Some(NoneSorter) else sorting
  }

  /** `setSorting`. */
  function SetSorting(v: View, sorting: Option<string>): (r: View)
    ensures r.sorting != Some(OldNoneSorter)
    ensures sorting != Some(OldNoneSorter) ==> r.sorting == sorting
    ensures r == v.(sorting := r.sorting)
  {
    v.(sorting := NormalizeSorting(sorting))
  }

  /** `getSorting`: also rewrites a legacy value stored in the field. */
  function GetSorting(v: View): (r: (View, Option<string>))
    ensures r.1 != Some(OldNoneSorter)
    ensures v.sorting != Some(OldNoneSorter) ==> r.1 == v.sorting
    ensures v.sorting == Some(OldNoneSorter) ==> r.1 == Some(NoneSorter)
    ensures r.0 == v.(sorting := r.1)
  {
    var s := NormalizeSorting(v.sorting);
    (v.(sorting := s), s)
  }

  /** What is set is what is read back, except the legacy name, which reads back
      as `"none"`; reading twice gives the same answer. */
  lemma SortingRoundTrip(v: View, sorting: Option<string>)
    ensures GetSorting(SetSorting(v, sorting)).1 == (if sorting == Some(OldNoneSorter) then Some(NoneSorter) else sorting)
    ensures GetSorting(GetSorting(v).0) == GetSorting(v)
  {
  }

  // ---------------------------------------------------------------------------
  // Display settings

  /** `getUpdateInterval`: a stored 0 (a view saved before the field existed) is
      replaced by the default, in the field too. */
  function GetUpdateInterval(v: View): (r: (View, int))
    ensures r.1 != 0
    ensures v.updateInterval != 0 ==> r.1 == v.updateInterval
    ensures v.updateInterval == 0 ==> r.1 == DefaultInterval
    ensures r.0 == v.(updateInterval := r.1)
  {
    var interval := if v.updateInterval == 0 then DefaultInterval else v.updateInterval;
    (v.(updateInterval := interval), interval)
  }

  /** Reading the interval a second time changes nothing more. */
  lemma UpdateIntervalStable(v: View)
    ensures GetUpdateInterval(GetUpdateInterval(v).0) == GetUpdateInterval(v)
  {
  }

  /** A style sheet that is blank after trimming is stored as null. */
  function BlankToNull(css: Option<string>): (r: Option<string>)
    ensures r.None? <==> css.None? || forall i :: 0 <= i < |css.value| ==> IsTrimmable(css.value[i])
    ensures r.Some? ==> r == css
  {
    if css.Some? && Trim(css.value) == "" then None else css
  }

  /** `setFullScreenCss`. */
  function SetFullScreenCss(v: View, css: Option<string>): (r: View)
    ensures r == v.(fullScreenCss := r.fullScreenCss)
    ensures r.fullScreenCss.Some? ==> r.fullScreenCss == css && Trim(css.value) != ""
    ensures r.fullScreenCss.None? ==> css.None? || Trim(css.value) == ""
  {
    v.(fullScreenCss := BlankToNull(css))
  }

  /** `setEmbeddedCss`. */
  function SetEmbeddedCss(v: View, css: Option<string>): (r: View)
    ensures r == v.(embeddedCss := r.embeddedCss)
    ensures r.embeddedCss.Some? ==> r.embeddedCss == css && Trim(css.value) != ""
    ensures r.embeddedCss.None? ==> css.None? || Trim(css.value) == ""
  {
    v.(embeddedCss := BlankToNull(css))
  }

  /** `getTheme`: a null theme reads as the default one. */
  function GetTheme(v: View): (r: string)
    ensures v.theme.Some? ==> r == v.theme.value
    ensures v.theme.None? ==> r == DefaultTheme
  {
    if v.theme.None? then DefaultTheme else v.theme.value
  }

  /** A new view sorts nothing, shows every component, refreshes every 60 seconds
      and uses the default theme. */
  lemma NewViewSettings()
    ensures GetSorting(NewView()).1 == Some(NoneSorter)
    ensures GetUpdateInterval(NewView()).1 == DefaultInterval
    ensures GetTheme(NewView()) == DefaultTheme
    ensures NewView().maxNumberOfVisiblePipelines <= 0
    ensures NewView().pagingEnabled && NewView().noOfPipelines == DefaultNoOfPipelines
  {
  }

  // ---------------------------------------------------------------------------
  // Renaming and deleting jobs

  /** The spec names the job in its first or its last field. */
  predicate References(spec: ComponentSpec, jobName: string) {
    spec.firstJob == jobName || spec.lastJob == Some(jobName)
  }

  /** The spec names the job in both fields (a component of one job). */
  predicate ReferencesTwice(spec: ComponentSpec, jobName: string) {
    spec.firstJob == jobName && spec.lastJob == Some(jobName)
  }

  /** The spec list after `onProjectRenamed`, and whether the iterator threw
      `IllegalStateException`. */
  datatype Renamed = Renamed(specs: seq<ComponentSpec>, illegalState: bool)

  /** The loop of `onProjectRenamed` as written. A rename (`newName` present)
      rewrites each field equal to `oldName`. A deletion (`newName` null) removes
      each spec whose first job or last job is `oldName`; a spec matching on both
      is removed by the first `it.remove()` and the second one throws, leaving the
      specs after it unprocessed. */
  function RenameSpecs(specs: seq<ComponentSpec>, oldName: string, newName: Option<string>): (r: Renamed)
    ensures newName.Some? ==> !r.illegalState && |r.specs| == |specs|
    ensures newName.Some? ==> forall i :: 0 <= i < |specs| ==>
      r.specs[i].name == specs[i].name &&
      r.specs[i].firstJob == (if specs[i].firstJob == oldName then newName.value else specs[i].firstJob) &&
      r.specs[i].lastJob == (if specs[i].lastJob == Some(oldName) then newName else specs[i].lastJob)
    ensures newName.None? ==> (r.illegalState <==> exists i :: 0 <= i < |specs| && ReferencesTwice(specs[i], oldName))
    decreases |specs|
  {
    if |specs| == 0 then Renamed([], false)
    else
      var spec := specs[0];
      var firstHit := spec.firstJob == oldName;
      var lastHit := spec.lastJob == Some(oldName);
      var rest := RenameSpecs(specs[1..], oldName, newName);
      assert forall i :: 0 < i < |specs| ==> specs[1..][i - 1] == specs[i];
      match newName
      case None =>
        if firstHit && lastHit then Renamed(specs[1..], true)
        else if firstHit || lastHit then rest
        else Renamed([spec] + rest.specs, rest.illegalState)
      case Some(name) =>
        var renamed := ComponentSpec(spec.name, if firstHit then name else spec.firstJob, if lastHit then newName else spec.lastJob);
        Renamed([renamed] + rest.specs, rest.illegalState)
  }

  /** The deletion `onProjectRenamed` evidently intends: every spec that names the
      job is removed, every other spec is kept. */
  function RemoveReferences(specs: seq<ComponentSpec>, jobName: string): seq<ComponentSpec>
    decreases |specs|
  {
    if |specs| == 0 then []
    else (if References(specs[0], jobName) then [] else [specs[0]]) + RemoveReferences(specs[1..], jobName)
  }

  /** Exactly the specs that do not name the job are kept, each as often as it
      occurs. */
  lemma {:induction false} RemoveReferencesKeepsTheOthers(specs: seq<ComponentSpec>, jobName: string)
    ensures forall s :: s in RemoveReferences(specs, jobName) <==> s in specs && !References(s, jobName)
    ensures forall s :: !References(s, jobName) ==> multiset(RemoveReferences(specs, jobName))[s] == multiset(specs)[s]
    decreases |specs|
  {
    if |specs| > 0 {
      RemoveReferencesKeepsTheOthers(specs[1..], jobName);
      assert specs == [specs[0]] + specs[1..];
    }
  }

  /** Removal keeps the order of the kept specs: it distributes over concatenation. */
  lemma {:induction false} RemoveReferencesKeepsOrder(a: seq<ComponentSpec>, b: seq<ComponentSpec>, jobName: string)
    ensures RemoveReferences(a + b, jobName) == RemoveReferences(a, jobName) + RemoveReferences(b, jobName)
    decreases |a|
  {
    if |a| == 0 {
      assert a + b == b;
    } else {
      var ab := a + b;
      assert ab[0] == a[0] && ab[1..] == a[1..] + b;
      RemoveReferencesKeepsOrder(a[1..], b, jobName);
      var head := if References(a[0], jobName) then [] else [a[0]];
      assert RemoveReferences(ab, jobName) == head + RemoveReferences(ab[1..], jobName);
      assert RemoveReferences(a, jobName) == head + RemoveReferences(a[1..], jobName);
    }
  }

  /** Where no spec names the job in both fields, the deletion as written is the
      intended one. */
  lemma {:induction false} DeleteAsWrittenRemovesReferences(specs: seq<ComponentSpec>, jobName: string)
    requires forall i :: 0 <= i < |specs| ==> !ReferencesTwice(specs[i], jobName)
    ensures RenameSpecs(specs, jobName, None) == Renamed(RemoveReferences(specs, jobName), false)
    decreases |specs|
  {
    if |specs| > 0 {
      assert forall i :: 0 <= i < |specs| - 1 ==> specs[1..][i] == specs[i + 1];
      DeleteAsWrittenRemovesReferences(specs[1..], jobName);
    }
  }

  /** Deleting job "x" when one component consists of "x" alone: the iterator throws
      and a later spec that still names "x" is left in the list. */
  lemma DeleteOfSingleJobComponentThrows()
    ensures RenameSpecs([ComponentSpec("a", "x", Some("x")), ComponentSpec("b", "x", None)], "x", None)
      == Renamed([ComponentSpec("b", "x", None)], true)
    ensures RemoveReferences([ComponentSpec("a", "x", Some("x")), ComponentSpec("b", "x", None)], "x") == []
  {
    var specs := [ComponentSpec("a", "x", Some("x")), ComponentSpec("b", "x", None)];
    assert specs[1..] == [ComponentSpec("b", "x", None)];
    assert specs[1..][1..] == [];
  }

  /** Renaming back undoes a rename, provided the new name was not in use. */
  lemma {:induction false} RenameBackRestores(specs: seq<ComponentSpec>, oldName: string, newName: string)
    requires oldName != newName
    requires forall i :: 0 <= i < |specs| ==> !References(specs[i], newName)
    ensures RenameSpecs(RenameSpecs(specs, oldName, Some(newName)).specs, newName, Some(oldName)).specs == specs
  {
    var once := RenameSpecs(specs, oldName, Some(newName)).specs;
    var twice := RenameSpecs(once, newName, Some(oldName)).specs;
    forall i | 0 <= i < |specs|
      ensures twice[i] == specs[i]
    {
      assert !References(specs[i], newName);
    }
  }

  /** `onProjectRenamed(item, oldName, newName)` on the view; the flag is the
      thrown `IllegalStateException`. */
  function OnProjectRenamed(v: View, oldName: string, newName: Option<string>): (r: (View, bool))
    ensures r.0 == v.(componentSpecs := r.0.componentSpecs)
    ensures v.componentSpecs.None? ==> r == (v, false)
    ensures v.componentSpecs.Some? ==> r.0.componentSpecs == Some(RenameSpecs(v.componentSpecs.value, oldName, newName).specs)
    ensures newName.Some? ==> !r.1
  {
    match v.componentSpecs
    case None => (v, false)
    case Some(specs) =>
      var renamed := RenameSpecs(specs, oldName, newName);
      (v.(componentSpecs := Some(renamed.specs)), renamed.illegalState)
  }

  /** `onDeleted`, as intended: the view forgets every spec that names the job. */
  function OnProjectDeleted(v: View, fullName: string): (r: View)
    ensures r == v.(componentSpecs := r.componentSpecs)
    ensures r.componentSpecs.Some? <==> v.componentSpecs.Some?
    ensures r.componentSpecs.Some? ==> forall i :: 0 <= i < |r.componentSpecs.value| ==> !References(r.componentSpecs.value[i], fullName)
    ensures r.componentSpecs.Some? ==> forall s :: s in v.componentSpecs.value && !References(s, fullName) ==> s in r.componentSpecs.value
  {
    match v.componentSpecs
    case None => v
    case Some(specs) =>
      RemoveReferencesKeepsTheOthers(specs, fullName);
      v.(componentSpecs := Some(RemoveReferences(specs, fullName)))
  }

  // ---------------------------------------------------------------------------
  // Building the components

  /** The settings `createPipelineLatest` receives. */
  datatype LatestRequest = LatestRequest(noOfPipelines: int, paging: bool, maxNoOfPages: int)

  /** The Jenkins instance, as far as `getPipelines` consults it. `entries` lists a
      `HashMap` in its (unspecified) iteration order; `comparators` is
      `ComponentComparator.all().find`; `fullScreen` is the current request's
      `fullscreen` parameter; `extract`, `aggregated` and `latest` are
      `Pipeline.extractPipeline`, `createPipelineAggregated` and
      `createPipelineLatest`, each of which may throw a `PipelineException`. */
  datatype Jenkins = Jenkins(
    getProject: string -> Option<Job>,
    allItems: seq<Job>,
    compile: string -> ProjectUtil.Pattern,
    entries: map<string, Job> -> seq<(string, Job)>,
    comparators: string -> Option<(Component, Component) -> int>,
    fullScreen: bool,
    extract: (string, Job, Option<Job>) -> Result<Pipeline, string>,
    aggregated: Pipeline -> Result<Pipeline, string>,
    latest: (Pipeline, LatestRequest) -> Result<seq<Pipeline>, string>)

  /** Pipeline extraction never throws. */
  ghost predicate Builds(j: Jenkins) {
    (forall name, first, last :: j.extract(name, first, last).Ok?) &&
    (forall p :: j.aggregated(p).Ok?) &&
    (forall p, q :: j.latest(p, q).Ok?)
  }

  /** Paging is switched off in the full-screen view. */
  function LatestRequestFor(v: View, j: Jenkins): (q: LatestRequest)
    ensures q.paging <==> v.pagingEnabled && !j.fullScreen
    ensures q.noOfPipelines == v.noOfPipelines && q.maxNoOfPages == v.maxNoOfPages
  {
    LatestRequest(v.noOfPipelines, if j.fullScreen then false else v.pagingEnabled, v.maxNoOfPages)
  }

  /** `getComponent`: the component numbered `number`, listing the aggregated
      pipeline (when shown) before the latest ones. */
  function GetComponent(v: View, j: Jenkins, name: string, firstJob: Job, lastJob: Option<Job>, number: int): (r: Result<Component, string>)
    ensures Builds(j) ==> r.Ok?
    ensures r.Ok? ==> r.value.name == name && r.value.firstJob == firstJob && r.value.number == number
    ensures r.Ok? ==> j.extract(name, firstJob, lastJob).Ok?
    ensures r.Ok? && v.showAggregatedPipeline ==>
      |r.value.pipelines| >= 1 && j.aggregated(j.extract(name, firstJob, lastJob).value) == Ok(r.value.pipelines[0])
    ensures r.Ok? ==>
      j.latest(j.extract(name, firstJob, lastJob).value, LatestRequestFor(v, j))
        == Ok(r.value.pipelines[(if v.showAggregatedPipeline then 1 else 0)..])
  {
    var pipeline :- j.extract(name, firstJob, lastJob);
    var aggregated :- if v.showAggregatedPipeline then
        match j.aggregated(pipeline)
        case Ok(p) => Ok([p])
        case Err(e) => Err(e)
      else Ok([]);
    var latest :- j.latest(pipeline, LatestRequestFor(v, j));
    Ok(Component(name, firstJob, number, aggregated + latest))
  }

  /** The message of the `PipelineException` for a spec whose first job is missing. */
  function ProjectNotFound(name: string): string {
    "Could not find project: " + name
  }

  /** The job a spec's optional last-job name resolves to. */
  function LastJob(j: Jenkins, spec: ComponentSpec): Option<Job> {
    if spec.lastJob.Some? then j.getProject(spec.lastJob.value) else None
  }

  /** The component of the spec at position `number`, or why it cannot be built:
      the spec's first job must resolve, and its last job is looked up by name. */
  function SpecComponent(v: View, j: Jenkins, spec: ComponentSpec, number: int): Result<Component, string> {
    match j.getProject(spec.firstJob)
    case None => Err(ProjectNotFound(spec.firstJob))
    case Some(firstJob) => GetComponent(v, j, spec.name, firstJob, LastJob(j, spec), number)
  }

  /** The components of the configured specs, numbered by position from 1; the
      first spec whose component cannot be built aborts with its error. */
  function SpecComponents(v: View, j: Jenkins, specs: seq<ComponentSpec>): (r: Result<seq<Component>, string>)
    ensures r.Ok? ==> |r.value| == |specs|
    ensures r.Ok? ==> forall i :: 0 <= i < |specs| ==>
      r.value[i].number == i + 1 && r.value[i].name == specs[i].name &&
      j.getProject(specs[i].firstJob) == Some(r.value[i].firstJob)
    ensures r.Ok? ==> forall i :: 0 <= i < |specs| ==>
      GetComponent(v, j, specs[i].name, r.value[i].firstJob, LastJob(j, specs[i]), i + 1) == Ok(r.value[i])
    ensures (exists i :: 0 <= i < |specs| && j.getProject(specs[i].firstJob).None?) ==> r.Err?
    ensures Builds(j) && (forall i :: 0 <= i < |specs| ==> j.getProject(specs[i].firstJob).Some?) ==> r.Ok?
    decreases |specs|
  {
    if |specs| == 0 then Ok([])
    else
      var n := |specs| - 1;
      var init := specs[..n];
      assert forall i :: 0 <= i < n ==> init[i] == specs[i];
      var built :- SpecComponents(v, j, init);
      var c :- SpecComponent(v, j, specs[n], n + 1);
      SpecComponentsStep(v, j, specs, built, c);
      Ok(built + [c])
  }

  /** Appending the component of the last spec keeps every component tied to its spec. */
  lemma SpecComponentsStep(v: View, j: Jenkins, specs: seq<ComponentSpec>, built: seq<Component>, c: Component)
    requires |specs| > 0 && |built| == |specs| - 1
    requires forall i :: 0 <= i < |built| ==>
      built[i].number == i + 1 && built[i].name == specs[i].name &&
      j.getProject(specs[i].firstJob) == Some(built[i].firstJob)
    requires forall i :: 0 <= i < |built| ==>
      GetComponent(v, j, specs[i].name, built[i].firstJob, LastJob(j, specs[i]), i + 1) == Ok(built[i])
    requires SpecComponent(v, j, specs[|built|], |specs|) == Ok(c)
    ensures forall i :: 0 <= i < |specs| ==>
      (built + [c])[i].number == i + 1 && (built + [c])[i].name == specs[i].name &&
      j.getProject(specs[i].firstJob) == Some((built + [c])[i].firstJob)
    ensures forall i :: 0 <= i < |specs| ==>
      GetComponent(v, j, specs[i].name, (built + [c])[i].firstJob, LastJob(j, specs[i]), i + 1) == Ok((built + [c])[i])
  {
  }

  /** The first spec whose component cannot be built decides the error: its
      missing first job, or the failure of its pipeline extraction. */
  lemma {:induction false} SpecComponentsFailAtFirstFailure(v: View, j: Jenkins, specs: seq<ComponentSpec>, i: nat)
    requires i < |specs| && SpecComponent(v, j, specs[i], i + 1).Err?
    requires forall k :: 0 <= k < i ==> SpecComponent(v, j, specs[k], k + 1).Ok?
    ensures SpecComponents(v, j, specs) == Err(SpecComponent(v, j, specs[i], i + 1).error)
    decreases |specs|
  {
    var n := |specs| - 1;
    var init := specs[..n];
    if i < n {
      assert init[i] == specs[i];
      assert forall k :: 0 <= k < i ==> init[k] == specs[k];
      SpecComponentsFailAtFirstFailure(v, j, init, i);
    } else {
      assert forall k :: 0 <= k < n ==> init[k] == specs[k];
      SpecComponentsSucceed(v, j, init);
    }
  }

  /** When every spec's component can be built, so can the list. */
  lemma {:induction false} SpecComponentsSucceed(v: View, j: Jenkins, specs: seq<ComponentSpec>)
    requires forall k :: 0 <= k < |specs| ==> SpecComponent(v, j, specs[k], k + 1).Ok?
    ensures SpecComponents(v, j, specs).Ok?
    decreases |specs|
  {
    if |specs| > 0 {
      var n := |specs| - 1;
      var init := specs[..n];
      assert forall k :: 0 <= k < n ==> init[k] == specs[k];
      SpecComponentsSucceed(v, j, init);
    }
  }

  /** With extraction never failing, the first spec whose first job is missing
      decides the error message. */
  lemma {:induction false} FirstMissingProjectIsReported(v: View, j: Jenkins, specs: seq<ComponentSpec>, i: nat)
    requires Builds(j)
    requires i < |specs| && j.getProject(specs[i].firstJob).None?
    requires forall k :: 0 <= k < i ==> j.getProject(specs[k].firstJob).Some?
    ensures SpecComponents(v, j, specs) == Err(ProjectNotFound(specs[i].firstJob))
    decreases |specs|
  {
    var n := |specs| - 1;
    var init := specs[..n];
    if i < n {
      assert init[i] == specs[i];
      FirstMissingProjectIsReported(v, j, init, i);
    } else {
      assert forall k :: 0 <= k < n ==> init[k] == specs[k];
      assert SpecComponents(v, j, init).Ok?;
    }
  }

  /** The entries of the map `getProjects` returns for a regular expression. */
  function Matches(j: Jenkins, spec: RegExpSpec): seq<(string, Job)> {
    j.entries(ProjectUtil.GetProjects(j.compile(spec.regexp), j.allItems))
  }

  /** The components of one regular expression's matches, numbered from 1. */
  ghost predicate NumberedMatches(matches: seq<(string, Job)>, block: seq<Component>) {
    |block| == |matches| &&
    forall i :: 0 <= i < |block| ==>
      block[i].number == i + 1 && block[i].name == matches[i].0 && block[i].firstJob == matches[i].1
  }

  /** The components of one regular expression's matches: each built by
      `getComponent` with no last job, numbered from 1. */
  function MatchComponents(v: View, j: Jenkins, matches: seq<(string, Job)>): (r: Result<seq<Component>, string>)
    ensures r.Ok? ==> NumberedMatches(matches, r.value)
    ensures r.Ok? ==> forall i :: 0 <= i < |matches| ==>
      GetComponent(v, j, matches[i].0, matches[i].1, None, i + 1) == Ok(r.value[i])
    ensures Builds(j) ==> r.Ok?
    decreases |matches|
  {
    if |matches| == 0 then Ok([])
    else
      var n := |matches| - 1;
      var init := matches[..n];
      assert forall i :: 0 <= i < n ==> init[i] == matches[i];
      var built :- MatchComponents(v, j, init);
      var c :- GetComponent(v, j, matches[n].0, matches[n].1, None, n + 1);
      Ok(built + [c])
  }

  /** One block of components per regular expression, in configuration order. */
  function RegexpComponents(v: View, j: Jenkins, specs: seq<RegExpSpec>): (r: Result<seq<seq<Component>>, string>)
    ensures r.Ok? ==> |r.value| == |specs|
    ensures r.Ok? ==> forall k :: 0 <= k < |specs| ==> NumberedMatches(Matches(j, specs[k]), r.value[k])
    ensures r.Ok? ==> forall k :: 0 <= k < |specs| ==> MatchComponents(v, j, Matches(j, specs[k])) == Ok(r.value[k])
    ensures Builds(j) ==> r.Ok?
    decreases |specs|
  {
    if |specs| == 0 then Ok([])
    else
      var n := |specs| - 1;
      var init := specs[..n];
      assert forall k :: 0 <= k < n ==> init[k] == specs[k];
      var blocks :- RegexpComponents(v, j, init);
      var block :- MatchComponents(v, j, Matches(j, specs[n]));
      Ok(blocks + [block])
  }

  /** When `entries` lists the map faithfully, every regular-expression component
      is named by the capture its first job yields. */
  lemma RegexpComponentsAreCaptures(v: View, j: Jenkins, spec: RegExpSpec, block: seq<Component>)
    requires NumberedMatches(Matches(j, spec), block)
    requires forall e :: e in Matches(j, spec) ==>
      e.0 in ProjectUtil.GetProjects(j.compile(spec.regexp), j.allItems) &&
      ProjectUtil.GetProjects(j.compile(spec.regexp), j.allItems)[e.0] == e.1
    ensures forall c :: c in block ==>
      c.firstJob in j.allItems && ProjectUtil.Capture(j.compile(spec.regexp), c.firstJob) == Some(c.name)
  {
    var es := Matches(j, spec);
    forall c | c in block
      ensures c.firstJob in j.allItems && ProjectUtil.Capture(j.compile(spec.regexp), c.firstJob) == Some(c.name)
    {
      var i :| 0 <= i < |block| && block[i] == c;
      assert es[i] in es;
    }
  }

  /** Some spec's first job does not resolve. */
  predicate HasMissingFirstJob(j: Jenkins, specs: seq<ComponentSpec>) {
    exists i :: 0 <= i < |specs| && j.getProject(specs[i].firstJob).None?
  }

  /** The list `getPipelines` builds before sorting: spec components first, then the
      regular-expression blocks. */
  function Assemble(v: View, j: Jenkins): (r: Result<seq<Component>, string>)
    ensures r.Ok? && v.componentSpecs.Some? ==>
      |r.value| >= |v.componentSpecs.value| &&
      forall i :: 0 <= i < |v.componentSpecs.value| ==>
        r.value[i].number == i + 1 && r.value[i].name == v.componentSpecs.value[i].name
    ensures v.componentSpecs.Some? && HasMissingFirstJob(j, v.componentSpecs.value) ==> r.Err?
    ensures r.Ok? && v.componentSpecs.Some? ==>
      SpecComponents(v, j, v.componentSpecs.value).Ok? &&
      r.value[..|v.componentSpecs.value|] == SpecComponents(v, j, v.componentSpecs.value).value
    ensures r.Ok? ==>
      var n := if v.componentSpecs.Some? then |v.componentSpecs.value| else 0;
      |r.value| >= n &&
      (v.regexpFirstJobs.Some? ==>
        RegexpComponents(v, j, v.regexpFirstJobs.value).Ok? &&
        r.value[n..] == Flatten(RegexpComponents(v, j, v.regexpFirstJobs.value).value)) &&
      (v.regexpFirstJobs.None? ==> |r.value| == n)
  {
    var specComponents :- if v.componentSpecs.Some? then SpecComponents(v, j, v.componentSpecs.value) else Ok([]);
    var blocks :- if v.regexpFirstJobs.Some? then RegexpComponents(v, j, v.regexpFirstJobs.value) else Ok([]);
    Ok(specComponents + Flatten(blocks))
  }

  /** The sorter `getPipelines` applies: none when the setting is null or `"none"`
      (also in its legacy spelling) or names no registered sorter. */
  function Sorter(v: View, j: Jenkins): (r: Option<(Component, Component) -> int>)
    ensures NormalizeSorting(v.sorting) == None || NormalizeSorting(v.sorting) == Some(NoneSorter) ==> r.None?
    ensures r.Some? ==> j.comparators(NormalizeSorting(v.sorting).value) == r
    ensures NormalizeSorting(v.sorting).Some? && NormalizeSorting(v.sorting).value != NoneSorter ==>
      r == j.comparators(NormalizeSorting(v.sorting).value)
  {
    var sorting := NormalizeSorting(v.sorting);
    if sorting.None? || sorting.value == NoneSorter then None else j.comparators(sorting.value)
  }

  /** `subList(0, min(size, max))` when a positive maximum is set. */
  function LimitVisible(max: int, components: seq<Component>): (r: seq<Component>)
    ensures r <= components
    ensures max > 0 ==> |r| == Min(|components|, max)
    ensures max <= 0 ==> r == components
  {
    if max > 0 then components[..Min(|components|, max)] else components
  }

  /** A prefix holds no element more often than the whole list. */
  lemma PrefixMultiset<T>(p: seq<T>, s: seq<T>)
    requires p <= s
    ensures multiset(p) <= multiset(s)
  {
    assert s == p + s[|p|..];
  }

  /** `getPipelines`: the components on screen and the view with its `error` (and a
      legacy sorter name) updated. */
  function GetPipelines(v: View, j: Jenkins): (r: (View, seq<Component>))
    ensures r.0.error.None? <==> Assemble(v, j).Ok?
    ensures r.0.error.Some? ==> r.1 == [] && r.0 == v.(error := Some(Assemble(v, j).error))
    ensures r.0.error.None? ==> r.0 == v.(sorting := NormalizeSorting(v.sorting), error := None)
    ensures r.0.error.None? ==> multiset(r.1) <= multiset(Assemble(v, j).value)
    ensures r.0.error.None? && v.maxNumberOfVisiblePipelines > 0 ==>
      |r.1| == Min(|Assemble(v, j).value|, v.maxNumberOfVisiblePipelines)
    ensures r.0.error.None? && v.maxNumberOfVisiblePipelines <= 0 ==> |r.1| == |Assemble(v, j).value|
    ensures r.0.error.None? && Sorter(v, j).None? ==> r.1 <= Assemble(v, j).value
    ensures r.0.error.None? && Sorter(v, j).Some? ==> r.1 <= Sort(Sorter(v, j).value, Assemble(v, j).value)
  {
    match Assemble(v, j)
    case Err(message) => (v.(error := Some(message)), [])
    case Ok(components) =>
      var (v', sorting) := GetSorting(v);
      var sorted := match Sorter(v, j) case Some(cmp) => Sort(cmp, components) case None => components;
      var visible := LimitVisible(v.maxNumberOfVisiblePipelines, sorted);
      PrefixMultiset(visible, sorted);
      (v'.(error := None), visible)
  }

  /** A registered sorter that keeps the `Comparator` contract leaves the visible
      components in its order. */
  lemma GetPipelinesSorted(v: View, j: Jenkins, cmp: (Component, Component) -> int)
    requires Assemble(v, j).Ok? && Sorter(v, j) == Some(cmp) && IsComparator(cmp)
    ensures Sorted(cmp, GetPipelines(v, j).1)
  {
    var sorted := Sort(cmp, Assemble(v, j).value);
    SortIsSorted(cmp, Assemble(v, j).value);
    var visible := GetPipelines(v, j).1;
    assert visible <= sorted;
  }

  /** With the failed-first sorter selected, no visible component without a failed
      task precedes one with a failed task. */
  lemma GetPipelinesFailedFirst(v: View, j: Jenkins, latest: (Component, Component) -> int)
    requires Assemble(v, j).Ok? && Sorter(v, j) == Some(FailedJobComparator.FailedFirst(latest))
    requires IsComparator(latest)
    ensures FailedJobComparator.FailingFirst(GetPipelines(v, j).1)
    ensures forall c :: c in Assemble(v, j).value && FailedJobComparator.Failing(c) && c !in GetPipelines(v, j).1 ==>
      forall d :: d in GetPipelines(v, j).1 ==> FailedJobComparator.Failing(d)
  {
    var all := Assemble(v, j).value;
    var sorted := Sort(FailedJobComparator.FailedFirst(latest), all);
    var visible := GetPipelines(v, j).1;
    FailedJobComparator.SortFailedFirst(latest, all);
    assert visible <= sorted;
    FailedJobComparator.FailingFirstPrefix(sorted, visible);
    forall c | c in all
      ensures c in sorted
    {
      assert c in multiset(all);
    }
  }

  /** A missing first job empties the list and reports the first missing name. */
  lemma GetPipelinesReportsMissingProject(v: View, j: Jenkins, i: nat)
    requires Builds(j) && v.componentSpecs.Some?
    requires i < |v.componentSpecs.value| && j.getProject(v.componentSpecs.value[i].firstJob).None?
    requires forall k :: 0 <= k < i ==> j.getProject(v.componentSpecs.value[k].firstJob).Some?
    ensures GetPipelines(v, j).1 == []
    ensures GetPipelines(v, j).0.error == Some(ProjectNotFound(v.componentSpecs.value[i].firstJob))
  {
    FirstMissingProjectIsReported(v, j, v.componentSpecs.value, i);
  }

  // ---------------------------------------------------------------------------
  // Rebuild

  /** A build cause: `Cause.UserIdCause` (the user who started it) or any other. */
  datatype Cause = UserIdCause(userId: Option<string>) | OtherCause(description: string)

  /** The causes that are not user causes, in order. */
  function NonUserCauses(causes: seq<Cause>): seq<Cause>
    decreases |causes|
  {
    if |causes| == 0 then []
    else
      var n := |causes| - 1;
      var init := NonUserCauses(causes[..n]);
      if causes[n].UserIdCause? then init else init + [causes[n]]
  }

  /** Exactly the non-user causes are kept, each as often as it occurs. */
  lemma {:induction false} NonUserCausesKeepsTheOthers(causes: seq<Cause>)
    ensures forall c :: c in NonUserCauses(causes) <==> c in causes && !c.UserIdCause?
    ensures forall c: Cause :: !c.UserIdCause? ==> multiset(NonUserCauses(causes))[c] == multiset(causes)[c]
    decreases |causes|
  {
    if |causes| > 0 {
      var n := |causes| - 1;
      NonUserCausesKeepsTheOthers(causes[..n]);
      assert causes == causes[..n] + [causes[n]];
    }
  }

  /** The filter keeps the order of the kept causes: it distributes over
      concatenation. */
  lemma {:induction false} NonUserCausesKeepOrder(a: seq<Cause>, b: seq<Cause>)
    ensures NonUserCauses(a + b) == NonUserCauses(a) + NonUserCauses(b)
    decreases |b|
  {
    if |b| == 0 {
      assert a + b == a;
    } else {
      var n := |b| - 1;
      var ab := a + b;
      assert ab[..|ab| - 1] == a + b[..n] && ab[|ab| - 1] == b[n];
      NonUserCausesKeepOrder(a, b[..n]);
      NonUserCausesStep(ab);
      NonUserCausesStep(b);
    }
  }

  /** One step of the filter: the causes before the last one, then the last. */
  lemma NonUserCausesStep(causes: seq<Cause>)
    requires |causes| > 0
    ensures NonUserCauses(causes) == NonUserCauses(causes[..|causes| - 1]) +
      (if causes[|causes| - 1].UserIdCause? then [] else [causes[|causes| - 1]])
  {
  }

  /** A list without user causes is kept exactly as it is. */
  lemma {:induction false} NonUserCausesLeavesCleanList(causes: seq<Cause>)
    requires forall i :: 0 <= i < |causes| ==> !causes[i].UserIdCause?
    ensures NonUserCauses(causes) == causes
    decreases |causes|
  {
    if |causes| > 0 {
      var n := |causes| - 1;
      assert forall i :: 0 <= i < n ==> causes[..n][i] == causes[i];
      NonUserCausesLeavesCleanList(causes[..n]);
      assert causes == causes[..n] + [causes[n]];
    }
  }

  /** The cause list of `triggerRebuild`: the previous build's causes minus its user
      causes, then one cause for the user `user` who asked for the rebuild. */
  method RebuildCauses(prevCauses: seq<Cause>, user: Option<string>) returns (newCauses: seq<Cause>)
    ensures |newCauses| >= 1 && newCauses[|newCauses| - 1] == UserIdCause(user)
    ensures newCauses[..|newCauses| - 1] == NonUserCauses(prevCauses)
    ensures forall i :: 0 <= i < |newCauses| - 1 ==> !newCauses[i].UserIdCause?
  {
    newCauses := [];
    for i := 0 to |prevCauses|
      invariant newCauses == NonUserCauses(prevCauses[..i])
    {
      assert prevCauses[..i + 1][..i] == prevCauses[..i];
      if !prevCauses[i].UserIdCause? {
        newCauses := newCauses + [prevCauses[i]];
      }
    }
    assert prevCauses[..|prevCauses|] == prevCauses;
    NonUserCausesKeepsTheOthers(prevCauses);
    forall i | 0 <= i < |newCauses|
      ensures !newCauses[i].UserIdCause?
    {
      assert newCauses[i] in NonUserCauses(prevCauses);
    }
    newCauses := newCauses + [UserIdCause(user)];
  }

  // ---------------------------------------------------------------------------
  // Messages and form validation

  /** `withoutFolderPrefix`: the name after the first '/', or the whole name. */
  function WithoutFolderPrefix(projectName: string): (r: string)
    ensures '/' !in projectName ==> r == projectName
    ensures '/' in projectName ==>
      |r| < |projectName| &&
      projectName == projectName[..|projectName| - |r| - 1] + "/" + r &&
      '/' !in projectName[..|projectName| - |r| - 1]
  {
    var k := IndexOf(projectName, '/');
    assert k != -1 ==> projectName == projectName[..k] + "/" + projectName[k + 1..];
    projectName[k + 1..]
  }

  /** The message logged when a manual trigger fails. */
  function TriggerFailure(projectName: string, upstreamName: string, buildId: string): string {
    "Could not trigger manual build " + projectName + " for upstream " + upstreamName + " id: " + buildId
  }

  /** `triggerExceptionMessage`: the failure message, with a hint naming the job
      without its folder exactly when the name has a folder. */
  function TriggerExceptionMessage(projectName: string, upstreamName: string, buildId: string): (r: string)
    ensures TriggerFailure(projectName, upstreamName, buildId) <= r
    ensures |r| > |TriggerFailure(projectName, upstreamName, buildId)| <==> '/' in projectName
    ensures '/' in projectName ==>
      r[|TriggerFailure(projectName, upstreamName, buildId)|..] == ". Did you mean to specify " + WithoutFolderPrefix(projectName) + "?"
  {
    var message := TriggerFailure(projectName, upstreamName, buildId);
    if Contains(projectName, '/') then
      var r := message + ". Did you mean to specify " + WithoutFolderPrefix(projectName) + "?";
      assert r[|message|..] == ". Did you mean to specify " + WithoutFolderPrefix(projectName) + "?";
      r
    else message
  }

  /** A form check: `FormValidation.ok()` or an error with its message. */
  datatype FormValidation = Valid | Invalid(message: string)

  const NotAnInteger: string := "Value must be a integer"
  const NotPositive: string := "Value must be greater that 0"

  /** `doCheckUpdateInterval`: the value must parse as a positive `int`. */
  function DoCheckUpdateInterval(value: Option<string>): (r: FormValidation)
    ensures r.Valid? <==> ParseInt(value).Some? && ParseInt(value).value > 0
    ensures ParseInt(value).None? ==> r == Invalid(NotAnInteger)
    ensures ParseInt(value).Some? && ParseInt(value).value <= 0 ==> r == Invalid(NotPositive)
  {
    match ParseInt(value)
    case None => Invalid(NotAnInteger)
    case Some(n) => if n <= 0 then Invalid(NotPositive) else Valid
  }

  /** Every interval the form can print is judged by its value alone. */
  lemma UpdateIntervalCheckOfPrinted(n: int)
    requires IntMin <= n <= IntMax
    ensures DoCheckUpdateInterval(Some(IntToString(n))) == (if n > 0 then Valid else Invalid(NotPositive))
  {
    ParseIntToString(n);
  }

  const SyntaxError: string := "Syntax error in regular-expression pattern"
  const NoCaptureGroup: string := "No capture group defined"
  const TooManyCaptureGroups: string := "Too many capture groups defined"

  /** `doCheckRegexp`: a non-null value must compile and have exactly one group. */
  function DoCheckRegexp(value: Option<string>, compile: string -> ProjectUtil.Pattern): (r: FormValidation)
    ensures r.Valid? <==> value.None? || (compile(value.value).Compiled? && compile(value.value).groupCount == 1)
    ensures value.Some? && compile(value.value).InvalidPattern? ==> r == Invalid(SyntaxError)
    ensures value.Some? && compile(value.value).Compiled? && compile(value.value).groupCount == 0 ==> r == Invalid(NoCaptureGroup)
    ensures value.Some? && compile(value.value).Compiled? && compile(value.value).groupCount > 1 ==> r == Invalid(TooManyCaptureGroups)
  {
    match value
    case None => Valid
    case Some(regexp) =>
      match compile(regexp)
      case InvalidPattern => Invalid(SyntaxError)
      case Compiled(groupCount, _, _) =>
        if groupCount == 1 then Valid
        else if groupCount == 0 then Invalid(NoCaptureGroup)
        else Invalid(TooManyCaptureGroups)
  }

  /** A regular expression the form rejects for its syntax or for lacking a group
      finds no components at all. */
  lemma RejectedRegexpFindsNothing(regexp: string, compile: string -> ProjectUtil.Pattern, items: seq<Job>)
    requires DoCheckRegexp(Some(regexp), compile) in {Invalid(SyntaxError), Invalid(NoCaptureGroup)}
    ensures ProjectUtil.GetProjects(compile(regexp), items) == map[]
  {
  }
}

=== FILE: domain.dfy ===
/** The view objects the plugin assembles: jobs, tasks, stages, pipelines and
    components. Jobs belong to the Jenkins registry; everything else is derived
    afresh on every read of the view. */
module Domain {

  /** A Jenkins job (`AbstractProject`). Jenkins keeps full names unique, so a
      job is identified by its full name. */
  datatype Job = Job(fullName: string)

  /** The status of one task (`StatusType`). */
  datatype StatusType =
    | Idle
    | NotBuilt
    | Running
    | Queued
    | Succeeded
    | Failed
    | Unstable
    | Cancelled
    | Disabled
  {
    /** `Status.isFailed()`: only a failed build counts; an unstable one does not. */
    predicate IsFailed() {
      Failed?
    }
  }

  datatype Task = Task(id: string, status: StatusType)

  datatype Stage = Stage(name: string, tasks: seq<Task>)

  datatype Pipeline = Pipeline(name: string, stages: seq<Stage>)

  /** A named, numbered group of pipelines: `firstJob` is the job the component
      starts from and `number` its position in the view. */
  datatype Component = Component(name: string, firstJob: Job, number: int, pipelines: seq<Pipeline>)
}

=== FILE: failed_job_comparator.dfy ===
/** `FailedJobComparator`: orders components so that those whose first pipeline
    holds a failed task come before the others, and falls back to the
    latest-activity comparator inside each of the two groups. The latest-activity
    comparator is not part of this model; it is a parameter. */
module FailedJobComparator {
  import opened Basics
  import opened Domain
  import opened StableSort

  /** `firstPipeline`: a component's first pipeline, or null for a null component
      or one without pipelines. */
  function FirstPipeline(c: Option<Component>): (p: Option<Pipeline>)
    ensures p.Some? <==> c.Some? && |c.value.pipelines| > 0
    ensures p.Some? ==> p.value == c.value.pipelines[0]
  {
    if c.Some? && |c.value.pipelines| > 0 then Some(c.value.pipelines[0]) else None
  }

  /** Some task of some stage of the pipeline has failed; a null pipeline has none. */
  predicate HasFailedJob(p: Option<Pipeline>) {
    p.Some? &&
    exists i, j :: 0 <= i < |p.value.stages| && 0 <= j < |p.value.stages[i].tasks| &&
      p.value.stages[i].tasks[j].status.IsFailed()
  }

  /** `hasFailedJob`: the stage-by-stage, task-by-task scan that stops at the first
      failed task. */
  method ScanForFailedJob(p: Option<Pipeline>) returns (found: bool)
    ensures found <==> HasFailedJob(p)
  {
    if p.Some? {
      var stages := p.value.stages;
      for i := 0 to |stages|
        invariant forall k, j :: 0 <= k < i && 0 <= j < |stages[k].tasks| ==> !stages[k].tasks[j].status.IsFailed()
      {
        var tasks := stages[i].tasks;
        for j := 0 to |tasks|
          invariant forall m :: 0 <= m < j ==> !tasks[m].status.IsFailed()
        {
          if tasks[j].status.IsFailed() {
            return true;
          }
        }
      }
    }
    return false;
  }

  /** The component belongs to the group that is listed first. */
  predicate Failing(c: Component) {
    HasFailedJob(FirstPipeline(Some(c)))
  }

  /** `compare(o1, o2)` with `latest` standing for `LatestActivityComparator.compare`. */
  function Compare(latest: (Component, Component) -> int, o1: Component, o2: Component): (r: int)
    ensures Failing(o1) && !Failing(o2) ==> r == -1
    ensures Failing(o2) && !Failing(o1) ==> r == 1
    ensures Failing(o1) == Failing(o2) ==> r == latest(o1, o2)
  {
    if Failing(o1) && !Failing(o2) then -1
    else if Failing(o2) && !Failing(o1) then 1
    else latest(o1, o2)
  }

  /** The comparator object handed to `Collections.sort`. */
  function FailedFirst(latest: (Component, Component) -> int): (Component, Component) -> int {
    (o1: Component, o2: Component) => Compare(latest, o1, o2)
  }

  /** A component without pipelines is never in the failed group. */
  lemma NoPipelinesNotFailing(c: Component)
    requires |c.pipelines| == 0
    ensures !Failing(c)
  {
    assert FirstPipeline(Some(c)) == None;
  }

  /** When the latest-activity comparator keeps the `Comparator` contract, the
      failed-first comparator keeps it as well, as `Collections.sort` demands. */
  lemma {:induction false} CompareIsComparator(latest: (Component, Component) -> int)
    requires IsComparator(latest)
    ensures IsComparator(FailedFirst(latest))
  {
    var cmp := FailedFirst(latest);
    forall x, y
      ensures Sign(cmp(x, y)) == -Sign(cmp(y, x))
    {
      assert cmp(x, y) == Compare(latest, x, y);
      assert cmp(y, x) == Compare(latest, y, x);
      assert Sign(latest(x, y)) == -Sign(latest(y, x));
    }
    forall x, y, z | cmp(x, y) > 0 && cmp(y, z) > 0
      ensures cmp(x, z) > 0
    {
      assert cmp(x, y) == Compare(latest, x, y);
      assert cmp(y, z) == Compare(latest, y, z);
      assert cmp(x, z) == Compare(latest, x, z);
      if Failing(x) == Failing(y) && Failing(y) == Failing(z) {
        assert latest(x, y) > 0 && latest(y, z) > 0;
      }
    }
    forall x, y, z | cmp(x, y) == 0
      ensures Sign(cmp(x, z)) == Sign(cmp(y, z))
    {
      assert cmp(x, y) == Compare(latest, x, y);
      assert cmp(x, z) == Compare(latest, x, z);
      assert cmp(y, z) == Compare(latest, y, z);
      assert Failing(x) == Failing(y) && latest(x, y) == 0;
      if Failing(x) == Failing(z) {
        assert Sign(latest(x, z)) == Sign(latest(y, z));
      }
    }
  }

  /** In a list sorted by the failed-first comparator, every failing component
      precedes every non-failing one. */
  lemma SortedPutsFailedFirst(latest: (Component, Component) -> int, s: seq<Component>, i: int, j: int)
    requires Sorted(FailedFirst(latest), s)
    requires 0 <= i < j < |s| && Failing(s[j])
    ensures Failing(s[i])
  {
  }

  /** No non-failing component precedes a failing one. */
  ghost predicate FailingFirst(s: seq<Component>) {
    forall i, j :: 0 <= i < j < |s| && Failing(s[j]) ==> Failing(s[i])
  }

  /** A prefix of a failing-first list is failing-first, and a failing component
      left out of the prefix leaves only failing components in it. */
  lemma FailingFirstPrefix(s: seq<Component>, p: seq<Component>)
    requires FailingFirst(s) && p <= s
    ensures FailingFirst(p)
    ensures forall c :: c in s && Failing(c) && c !in p ==> forall d :: d in p ==> Failing(d)
  {
    assert forall i :: 0 <= i < |p| ==> p[i] == s[i];
    forall c, d | c in s && Failing(c) && c !in p && d in p
      ensures Failing(d)
    {
      var k :| 0 <= k < |s| && s[k] == c;
      var i :| 0 <= i < |p| && p[i] == d;
      assert k >= |p|;
    }
  }

  /** Inside each group the latest-activity comparator orders the list. */
  ghost predicate GroupsInLatestOrder(latest: (Component, Component) -> int, s: seq<Component>) {
    forall i, j :: 0 <= i < j < |s| && Failing(s[i]) == Failing(s[j]) ==> latest(s[i], s[j]) <= 0
  }

  /** Sorting with the failed-first comparator keeps every component, lists the
      failing ones first and orders each group by the latest-activity comparator. */
  lemma SortFailedFirst(latest: (Component, Component) -> int, s: seq<Component>)
    requires IsComparator(latest)
    ensures multiset(Sort(FailedFirst(latest), s)) == multiset(s)
    ensures FailingFirst(Sort(FailedFirst(latest), s))
    ensures GroupsInLatestOrder(latest, Sort(FailedFirst(latest), s))
  {
    var cmp := FailedFirst(latest);
    var r := Sort(cmp, s);
    CompareIsComparator(latest);
    SortIsSorted(cmp, s);
    forall i, j | 0 <= i < j < |r| && Failing(r[j])
      ensures Failing(r[i])
    {
      SortedPutsFailedFirst(latest, r, i, j);
    }
    forall i, j | 0 <= i < j < |r| && Failing(r[i]) == Failing(r[j])
      ensures latest(r[i], r[j]) <= 0
    {
      assert cmp(r[i], r[j]) <= 0;
    }
  }
}

=== FILE: java_strings.dfy ===
/** The few `java.lang.String` and `Integer` operations the plugin relies on, with
    Java's own edge cases: `indexOf`, `substring`, `trim`, `replaceAll("\\s", "")`,
    `split(",")` (trailing empty strings dropped) and `Integer.parseInt`. */
module JavaStrings {
  import opened Basics

  /** `s.indexOf(c)`: the first position of `c`, or -1. */
  function IndexOf(s: string, c: char): (i: int)
    ensures -1 <= i < |s|
    ensures i == -1 <==> c !in s
    ensures 0 <= i ==> s[i] == c && c !in s[..i]
  {
    if |s| == 0 then -1
    else if s[0] == c then 0
    else
      var i := IndexOf(s[1..], c);
      if i == -1 then -1
      else
        assert s[..i + 1] == [s[0]] + s[1..][..i];
        i + 1
  }

  /** `s.contains(String.valueOf(c))`. */
  predicate Contains(s: string, c: char) {
    c in s
  }

  // ---------------------------------------------------------------------------
  // replaceAll("\\s", "")

  /** The characters the regular-expression class `\s` matches: space, tab,
      newline, vertical tab, form feed and carriage return. */
  predicate IsRegexWhitespace(c: char) {
    c == ' ' || c == '\t' || c == '\n' || c == '\r' || c as int == 0x0B || c as int == 0x0C
  }

  /** `s.replaceAll("\\s", "")`: every `\s` character removed, every other kept. */
  function RemoveWhitespace(s: string): (r: string)
    ensures forall c :: c in r ==> !IsRegexWhitespace(c)
    ensures |r| <= |s|
  {
    if |s| == 0 then ""
    else
      var rest := RemoveWhitespace(s[1..]);
      if IsRegexWhitespace(s[0]) then rest else [s[0]] + rest
  }

  /** Every character that is not `\s` is kept as often as it occurs. */
  lemma {:induction false} RemoveWhitespaceCounts(s: string)
    ensures forall c :: !IsRegexWhitespace(c) ==> multiset(RemoveWhitespace(s))[c] == multiset(s)[c]
    decreases |s|
  {
    if |s| > 0 {
      RemoveWhitespaceCounts(s[1..]);
      assert s == [s[0]] + s[1..];
    }
  }

  /** The removal works character by character, so it keeps the order of the kept
      characters: it distributes over concatenation. */
  lemma {:induction false} RemoveWhitespaceKeepsOrder(a: string, b: string)
    ensures RemoveWhitespace(a + b) == RemoveWhitespace(a) + RemoveWhitespace(b)
    decreases |a|
  {
    if |a| == 0 {
      assert a + b == b;
    } else {
      var ab := a + b;
      assert ab[0] == a[0] && ab[1..] == a[1..] + b;
      RemoveWhitespaceKeepsOrder(a[1..], b);
      RemoveWhitespaceStep(ab);
      RemoveWhitespaceStep(a);
    }
  }

  /** One step of the removal: the first character, then the rest. */
  lemma RemoveWhitespaceStep(s: string)
    requires |s| > 0
    ensures RemoveWhitespace(s) == (if IsRegexWhitespace(s[0]) then "" else [s[0]]) + RemoveWhitespace(s[1..])
  {
  }

  /** A string without `\s` characters is left exactly as it is. */
  lemma {:induction false} RemoveWhitespaceKeepsClean(s: string)
    requires forall k :: 0 <= k < |s| ==> !IsRegexWhitespace(s[k])
    ensures RemoveWhitespace(s) == s
    decreases |s|
  {
    if |s| > 0 {
      assert forall k :: 0 <= k < |s| - 1 ==> s[1..][k] == s[k + 1];
      RemoveWhitespaceKeepsClean(s[1..]);
      assert s == [s[0]] + s[1..];
    }
  }

  // ---------------------------------------------------------------------------
  // split(",")

  /** Every piece between occurrences of `sep`, trailing empty pieces included. */
  function SplitAll(s: string, sep: char): (parts: seq<string>)
    ensures |parts| >= 1
    decreases |s|
  {
    var i := IndexOf(s, sep);
    if i == -1 then [s]
    else [s[..i]] + SplitAll(s[i + 1..], sep)
  }

  /** No piece holds the separator. */
  lemma {:induction false} SplitAllNoSep(s: string, sep: char)
    ensures forall k :: 0 <= k < |SplitAll(s, sep)| ==> sep !in SplitAll(s, sep)[k]
    decreases |s|
  {
    var i := IndexOf(s, sep);
    if i != -1 {
      SplitAllAt(s, sep, i);
      SplitAllNoSep(s[i + 1..], sep);
      var rest := SplitAll(s[i + 1..], sep);
      forall k | 0 <= k < |SplitAll(s, sep)|
        ensures sep !in SplitAll(s, sep)[k]
      {
        if k > 0 {
          assert SplitAll(s, sep)[k] == rest[k - 1];
        }
      }
    }
  }

  /** Every character of every piece comes from `s`. */
  lemma {:induction false} SplitAllChars(s: string, sep: char)
    ensures forall k, c :: 0 <= k < |SplitAll(s, sep)| && c in SplitAll(s, sep)[k] ==> c in s
    decreases |s|
  {
    var i := IndexOf(s, sep);
    if i != -1 {
      var rest := SplitAll(s[i + 1..], sep);
      SplitAllChars(s[i + 1..], sep);
      var parts := [s[..i]] + rest;
      SplitAllAt(s, sep, i);
      forall k, c | 0 <= k < |parts| && c in parts[k]
        ensures c in s
      {
        if k == 0 {
          assert c in s[..i];
        } else {
          assert parts[k] == rest[k - 1];
          assert c in s[i + 1..];
        }
      }
    }
  }

  /** The pieces glued back together with `sep` between them. */
  function Join(parts: seq<string>, sep: char): string {
    if |parts| == 0 then ""
    else if |parts| == 1 then parts[0]
    else parts[0] + [sep] + Join(parts[1..], sep)
  }

  /** Joining a piece in front of at least one more. */
  lemma JoinCons(p: string, tail: seq<string>, sep: char)
    requires |tail| >= 1
    ensures Join([p] + tail, sep) == p + [sep] + Join(tail, sep)
  {
    var parts := [p] + tail;
    assert parts[0] == p && parts[1..] == tail;
  }

  /** One step of the round trip: the first piece, the separator, then the rest. */
  lemma JoinSplitAllStep(s: string, sep: char, i: int, tail: seq<string>)
    requires 0 <= i < |s| && s[i] == sep
    requires |tail| >= 1 && Join(tail, sep) == s[i + 1..]
    ensures Join([s[..i]] + tail, sep) == s
  {
    JoinCons(s[..i], tail, sep);
    SplitAround(s, i);
  }

  lemma {:induction false} JoinSplitAll(s: string, sep: char)
    ensures Join(SplitAll(s, sep), sep) == s
    decreases |s|
  {
    var i := IndexOf(s, sep);
    if i == -1 {
      assert SplitAll(s, sep) == [s];
    } else {
      var tail := SplitAll(s[i + 1..], sep);
      JoinSplitAll(s[i + 1..], sep);
      SplitAllAt(s, sep, i);
      JoinSplitAllStep(s, sep, i, tail);
    }
  }

  /** The first piece ends at the first separator. */
  lemma {:induction false} SplitAllAt(s: string, sep: char, i: int)
    requires i == IndexOf(s, sep) && i != -1
    ensures SplitAll(s, sep) == [s[..i]] + SplitAll(s[i + 1..], sep)
  {
    assert 0 <= i < |s|;
    var head := s[..i];
    var tail := SplitAll(s[i + 1..], sep);
    assert SplitAll(s, sep) == [head] + tail;
  }

  /** A string is its part before position `i`, the character at `i`, and the rest. */
  lemma SplitAround(s: string, i: int)
    requires 0 <= i < |s|
    ensures s[..i] + [s[i]] + s[i + 1..] == s
  {
  }

  lemma {:induction false} JoinSnoc(parts: seq<string>, p: string, sep: char)
    requires |parts| >= 1
    ensures Join(parts + [p], sep) == Join(parts, sep) + [sep] + p
    decreases |parts|
  {
    if |parts| == 1 {
      assert parts + [p] == [parts[0], p];
    } else {
      assert (parts + [p])[1..] == parts[1..] + [p];
      JoinSnoc(parts[1..], p, sep);
    }
  }

  /** Drops the empty pieces at the end, as `split` with limit 0 does. */
  function DropTrailingEmpty(parts: seq<string>): (r: seq<string>)
    ensures r <= parts
    ensures |r| == 0 || r[|r| - 1] != ""
    ensures forall k :: |r| <= k < |parts| ==> parts[k] == ""
  {
    if |parts| == 0 then []
    else if parts[|parts| - 1] == "" then DropTrailingEmpty(parts[..|parts| - 1])
    else parts
  }

  /** `s.split(String.valueOf(sep))`: when `sep` does not occur the answer is `[s]`
      (even for the empty string); otherwise the pieces between separators with
      the trailing empty ones removed. */
  function Split(s: string, sep: char): (r: seq<string>)
    ensures sep !in s ==> r == [s]
    ensures forall k :: 0 <= k < |r| ==> sep !in r[k]
    ensures forall k, c :: 0 <= k < |r| && c in r[k] ==> c in s
    ensures sep in s ==> |r| == 0 || r[|r| - 1] != ""
  {
    if sep !in s then [s]
    else
      SplitAllChars(s, sep);
      SplitAllNoSep(s, sep);
      DropTrailingEmpty(SplitAll(s, sep))
  }

  lemma {:induction false} JoinDropTrailingEmpty(parts: seq<string>, sep: char)
    ensures Join(DropTrailingEmpty(parts), sep) <= Join(parts, sep)
    ensures forall i :: |Join(DropTrailingEmpty(parts), sep)| <= i < |Join(parts, sep)| ==> Join(parts, sep)[i] == sep
    decreases |parts|
  {
    if |parts| > 0 && parts[|parts| - 1] == "" {
      var init := parts[..|parts| - 1];
      assert parts == init + [""];
      JoinDropTrailingEmpty(init, sep);
      if |init| >= 1 {
        JoinSnoc(init, "", sep);
      }
    }
  }

  /** The tokens of `Split` are exactly the text of `s` up to the trailing
      separators it drops: joining them gives a prefix of `s`, and everything
      after that prefix is `sep`. */
  lemma SplitRoundTrip(s: string, sep: char)
    ensures Join(Split(s, sep), sep) <= s
    ensures forall i :: |Join(Split(s, sep), sep)| <= i < |s| ==> s[i] == sep
  {
    if sep in s {
      JoinSplitAll(s, sep);
      JoinDropTrailingEmpty(SplitAll(s, sep), sep);
    }
  }

  // ---------------------------------------------------------------------------
  // trim()

  /** `String.trim` removes every leading and trailing character up to U+0020. */
  predicate IsTrimmable(c: char) {
    c <= ' '
  }

  function TrimStart(s: string): (r: string)
    ensures r == "" <==> forall i :: 0 <= i < |s| ==> IsTrimmable(s[i])
    ensures r != "" ==> !IsTrimmable(r[0])
    ensures |r| <= |s| && r == s[|s| - |r|..]
  {
    if |s| > 0 && IsTrimmable(s[0]) then TrimStart(s[1..]) else s
  }

  function TrimEnd(s: string): (r: string)
    ensures r <= s
    ensures |s| > 0 && !IsTrimmable(s[0]) ==> r != ""
    ensures r != "" ==> !IsTrimmable(r[|r| - 1])
  {
    if |s| > 0 && IsTrimmable(s[|s| - 1]) then TrimEnd(s[..|s| - 1]) else s
  }

  /** `s.trim()`. It is empty exactly when every character of `s` is trimmable. */
  function Trim(s: string): (r: string)
    ensures r == "" <==> forall i :: 0 <= i < |s| ==> IsTrimmable(s[i])
    ensures r != "" ==> !IsTrimmable(r[0]) && !IsTrimmable(r[|r| - 1])
  {
    TrimEnd(TrimStart(s))
  }

  // ---------------------------------------------------------------------------
  // Integer.parseInt

  const IntMin: int := -0x8000_0000
  const IntMax: int := 0x7FFF_FFFF

  predicate IsDigit(c: char) {
    '0' <= c <= '9'
  }

  predicate AllDigits(s: string) {
    forall i :: 0 <= i < |s| ==> IsDigit(s[i])
  }

  /** The decimal value of a string of digits. */
  function DigitsValue(ds: string): nat
    requires AllDigits(ds)
  {
    if |ds| == 0 then 0 else DigitsValue(ds[..|ds| - 1]) * 10 + (ds[|ds| - 1] as int - '0' as int)
  }

  /** `Integer.parseInt(s)`: `None` is the `NumberFormatException` it throws for a
      null or empty string, a lone sign, a non-digit, or a value outside the
      32-bit range. */
  function ParseInt(s: Option<string>): (r: Option<int>)
    ensures r.Some? ==> IntMin <= r.value <= IntMax
    ensures s.None? || s.value == "" ==> r.None?
  {
    match s
    case None => None
    case Some(str) =>
      if |str| == 0 then None
      else
        var signed := str[0] == '-' || str[0] == '+';
        var digits := if signed then str[1..] else str;
        if |digits| == 0 || !AllDigits(digits) then None
        else
          var v: int := if str[0] == '-' then -(DigitsValue(digits) as int) else DigitsValue(digits);
          if IntMin <= v <= IntMax then Some(v) else None
  }

  /** The decimal digits of `n`, without leading zeros. */
  function NatToString(n: nat): (ds: string)
    ensures |ds| >= 1 && AllDigits(ds)
    ensures DigitsValue(ds) == n
  {
    var d := ['0' + (n % 10) as char];
    if n < 10 then d
    else
      var ds := NatToString(n / 10) + d;
      assert ds[..|ds| - 1] == NatToString(n / 10);
      ds
  }

  /** `Integer.toString(n)`. */
  function IntToString(n: int): string {
    if n < 0 then "-" + NatToString(-n) else NatToString(n)
  }

  /** `Integer.parseInt` reads back every value `Integer.toString` prints. */
  lemma ParseIntToString(n: int)
    requires IntMin <= n <= IntMax
    ensures ParseInt(Some(IntToString(n))) == Some(n)
  {
    if n < 0 {
      assert IntToString(n)[1..] == NatToString(-n);
    } else {
      var ds := NatToString(n);
      assert IsDigit(ds[0]);
    }
  }
}

=== FILE: project_util.dfy ===
/** `ProjectUtil`: how the plugin finds the jobs of a pipeline.

    - `DownstreamProjects` is the edge list of one job: the outputs of every
      registered relationship resolver, with the job's own downstream jobs moved
      behind the jobs named by "trigger/call builds" steps of its post-build scripts.
    - `GetAllDownstreamProjects` is the depth-first walk from a first job, bounded
      by an optional last job, over those edge lists.
    - `GetProjects` is the regular-expression discovery of first jobs.

    The Jenkins registry, the resolvers, the publisher object model and the
    regular-expression engine are parameters: uninterpreted functions over jobs. */
module ProjectUtil {
  import opened Basics
  import opened Domain
  import opened JavaStrings

  // ===========================================================================
  // getDownstreamProjects

  /** A `BlockableBuildTriggerConfig`: its comma-separated list of project names. */
  datatype TriggerConfig = TriggerConfig(projects: string)

  /** The build steps of a post-build script the plugin looks into. */
  datatype BuildStep =
    | TriggerBuilder(configs: seq<TriggerConfig>)
    | ConditionalBuilder(conditionalBuilders: seq<BuildStep>)
    | OtherBuildStep

  datatype Publisher =
    | PostBuildScript(buildSteps: seq<BuildStep>)
    | OtherPublisher

  /** What Jenkins answers about jobs. */
  datatype Host = Host(
    resolvers: seq<Job -> seq<Job>>,      // RelationshipResolver.all(), in registration order
    downstreamOf: Job -> seq<Job>,        // AbstractProject.getDownstreamProjects()
    publishersOf: Job -> seq<Publisher>,  // AbstractProject.getPublishersList()
    findNearest: string -> Option<Job>    // AbstractProject.findNearest(name), null as None
  )

  /** The exceptions `getDownstreamProjects` can throw. */
  datatype Fault =
    | IndexOutOfBounds  // result.remove(-1) on an emptied list
    | NullPointer       // findNearest returned null and was dereferenced

  /** `getNumberOfDownstreamJobsForProject`: counts the job's own downstream jobs
      one by one. */
  method NumberOfDownstreamJobs(downstream: seq<Job>) returns (counter: nat)
    ensures counter == |downstream|
  {
    counter := 0;
    for i := 0 to |downstream|
      invariant counter == i
    {
      counter := counter + 1;
    }
  }

  /** Every resolver's answer for `project`, concatenated in registration order. */
  function ResolverOutputs(h: Host, project: Job): seq<Job> {
    Flatten(seq(|h.resolvers|, i requires 0 <= i < |h.resolvers| => h.resolvers[i](project)))
  }

  /** The loop that sets the job's own downstream jobs aside: `count` times the last
      element of `result` is removed and appended to `popped`. Removing from an
      empty list throws. */
  function PopLast(result: seq<Job>, popped: seq<Job>, count: nat): (r: Result<(seq<Job>, seq<Job>), Fault>)
    ensures r.Ok? <==> count <= |result|
    ensures r.Ok? ==> r.value.0 == result[..|result| - count]
    ensures r.Ok? ==> r.value.1 == popped + Reverse(result[|result| - count..])
    decreases count
  {
    if count == 0 then Ok((result, popped))
    else if |result| == 0 then Err(IndexOutOfBounds)
    else
      var n := |result|;
      assert count <= n ==> Reverse(result[n - count..]) == [result[n - 1]] + Reverse(result[..n - 1][n - count..]) by {
        if count <= n {
          ReverseOfSuffix(result, count);
        }
      }
      PopLast(result[..n - 1], popped + [result[n - 1]], count - 1)
  }

  /** Reversing the last `count` elements starts with the very last one. */
  lemma ReverseOfSuffix(s: seq<Job>, count: nat)
    requires 0 < count <= |s|
    ensures Reverse(s[|s| - count..]) == [s[|s| - 1]] + Reverse(s[..|s| - 1][|s| - count..])
  {
    var n := |s|;
    var suffix := s[n - count..];
    assert suffix[|suffix| - 1] == s[n - 1];
    assert suffix[..|suffix| - 1] == s[..n - 1][n - count..];
  }

  /** A job found by name is taken only when its full name is exactly that name. */
  predicate MatchesExactly(findNearest: string -> Option<Job>, j: Job) {
    findNearest(j.fullName) == Some(j)
  }

  /** The jobs one list of names contributes, in order: each name is looked up with
      `findNearest` and the job kept when its full name equals the name. */
  function TokenJobs(tokens: seq<string>, findNearest: string -> Option<Job>): (r: Result<seq<Job>, Fault>)
    ensures r.Err? <==> exists k :: 0 <= k < |tokens| && findNearest(tokens[k]).None?
    ensures r.Ok? ==> forall j :: j in r.value ==> j.fullName in tokens && MatchesExactly(findNearest, j)
    ensures r.Ok? ==> forall t :: t in tokens && findNearest(t) == Some(Job(t)) ==> Job(t) in r.value
  {
    if |tokens| == 0 then Ok([])
    else
      match findNearest(tokens[0])
      case None => Err(NullPointer)
      case Some(p) =>
        var rest :- TokenJobs(tokens[1..], findNearest);
        assert forall t :: t in tokens[1..] ==> t in tokens;
        Ok((if p.fullName == tokens[0] then [p] else []) + rest)
  }

  /** The names of a trigger configuration: all `\s` characters removed, then split on ','. */
  function ConfigTokens(config: TriggerConfig): (tokens: seq<string>)
    ensures forall k :: 0 <= k < |tokens| ==> ',' !in tokens[k]
    ensures forall k, c :: 0 <= k < |tokens| && c in tokens[k] ==> !IsRegexWhitespace(c)
  {
    Split(RemoveWhitespace(config.projects), ',')
  }

  /** Applies `f` to each element in order and concatenates the answers; the first
      element whose answer is an exception ends the scan with it. */
  function FlatMap<X>(xs: seq<X>, f: X -> Result<seq<Job>, Fault>): (r: Result<seq<Job>, Fault>)
    ensures r.Ok? <==> forall k :: 0 <= k < |xs| ==> f(xs[k]).Ok?
    ensures r.Ok? ==> forall j :: j in r.value ==> exists k :: 0 <= k < |xs| && j in f(xs[k]).value
  {
    if |xs| == 0 then Ok([])
    else
      var head :- f(xs[0]);
      var tail :- FlatMap(xs[1..], f);
      assert forall k :: 0 <= k < |xs| - 1 ==> xs[1..][k] == xs[k + 1];
      Ok(head + tail)
  }

  /** One element: its own answer, exception or jobs. */
  lemma FlatMapSingle<X>(x: X, f: X -> Result<seq<Job>, Fault>)
    ensures FlatMap([x], f) == (match f(x) case Err(e) => Err(e) case Ok(jobs) => Ok(jobs))
  {
    assert [x][1..] == [];
    match f(x)
    case Err(e) =>
    case Ok(jobs) => assert jobs + [] == jobs;
  }

  /** The scan of `a + b` is the scan of `a` followed by the scan of `b`: all of
      `a`'s jobs in order, then all of `b`'s; the first exception, from `a` before
      `b`, is the answer when there is one. */
  lemma {:induction false} FlatMapAppend<X>(a: seq<X>, b: seq<X>, f: X -> Result<seq<Job>, Fault>)
    ensures FlatMap(a + b, f) ==
      match FlatMap(a, f)
      case Err(e) => Err(e)
      case Ok(x) => (match FlatMap(b, f) case Err(e) => Err(e) case Ok(y) => Ok(x + y))
    decreases |a|
  {
    if |a| == 0 {
      assert a + b == b;
      match FlatMap(b, f)
      case Err(e) =>
      case Ok(y) => assert [] + y == y;
    } else {
      var ab := a + b;
      assert ab[0] == a[0] && ab[1..] == a[1..] + b;
      FlatMapAppend(a[1..], b, f);
      match f(a[0])
      case Err(e) =>
      case Ok(h) =>
        match FlatMap(a[1..], f)
        case Err(e) =>
        case Ok(x) =>
          match FlatMap(b, f)
          case Err(e) =>
          case Ok(y) => assert h + (x + y) == (h + x) + y;
    }
  }

  /** What one name contributes: a null dereference when nothing is found, the
      job when its full name is exactly the name, and nothing otherwise. */
  function TokenLookup(findNearest: string -> Option<Job>): string -> Result<seq<Job>, Fault> {
    t => match findNearest(t)
         case None => Err(NullPointer)
         case Some(p) => Ok(if p.fullName == t then [p] else [])
  }

  /** The lookup loop is the in-order scan of its names, one name at a time; with
      `FlatMapSingle` and `FlatMapAppend` this fixes the kept jobs, their order
      and their repetitions. */
  lemma {:induction false} TokenJobsIsFlatMap(tokens: seq<string>, findNearest: string -> Option<Job>)
    ensures TokenJobs(tokens, findNearest) == FlatMap(tokens, TokenLookup(findNearest))
    decreases |tokens|
  {
    if |tokens| > 0 {
      TokenJobsIsFlatMap(tokens[1..], findNearest);
    }
  }

  /** The names of `a + b` contribute `a`'s jobs, then `b`'s; the first name that
      resolves to nothing, from `a` before `b`, throws. */
  lemma TokenJobsAppend(a: seq<string>, b: seq<string>, findNearest: string -> Option<Job>)
    ensures TokenJobs(a + b, findNearest) ==
      match TokenJobs(a, findNearest)
      case Err(e) => Err(e)
      case Ok(x) => (match TokenJobs(b, findNearest) case Err(e) => Err(e) case Ok(y) => Ok(x + y))
  {
    TokenJobsIsFlatMap(a + b, findNearest);
    TokenJobsIsFlatMap(a, findNearest);
    TokenJobsIsFlatMap(b, findNearest);
    FlatMapAppend(a, b, TokenLookup(findNearest));
  }

  /** One name: the job it names exactly, nothing, or the throw. */
  lemma TokenJobsSingle(t: string, findNearest: string -> Option<Job>)
    ensures TokenJobs([t], findNearest) ==
      match findNearest(t)
      case None => Err(NullPointer)
      case Some(p) => Ok(if p.fullName == t then [p] else [])
  {
    TokenJobsIsFlatMap([t], findNearest);
    FlatMapSingle(t, TokenLookup(findNearest));
  }

  function ConfigJobs(config: TriggerConfig, findNearest: string -> Option<Job>): Result<seq<Job>, Fault> {
    TokenJobs(ConfigTokens(config), findNearest)
  }

  function ConfigsJobs(configs: seq<TriggerConfig>, findNearest: string -> Option<Job>): Result<seq<Job>, Fault> {
    FlatMap(configs, c => ConfigJobs(c, findNearest))
  }

  /** A step nested in a conditional step counts only when it is itself a trigger step. */
  function NestedStepJobs(step: BuildStep, findNearest: string -> Option<Job>): Result<seq<Job>, Fault> {
    if step.TriggerBuilder? then ConfigsJobs(step.configs, findNearest) else Ok([])
  }

  function StepJobs(step: BuildStep, findNearest: string -> Option<Job>): Result<seq<Job>, Fault> {
    match step
    case ConditionalBuilder(nested) => FlatMap(nested, s => NestedStepJobs(s, findNearest))
    case TriggerBuilder(configs) => ConfigsJobs(configs, findNearest)
    case OtherBuildStep => Ok([])
  }

  function PublisherJobs(publisher: Publisher, findNearest: string -> Option<Job>): Result<seq<Job>, Fault> {
    match publisher
    case PostBuildScript(steps) => FlatMap(steps, s => StepJobs(s, findNearest))
    case OtherPublisher => Ok([])
  }

  /** The jobs named by trigger steps of the post-build scripts, in scan order. */
  function TriggerJobs(publishers: seq<Publisher>, findNearest: string -> Option<Job>): Result<seq<Job>, Fault> {
    FlatMap(publishers, p => PublisherJobs(p, findNearest))
  }

  /** Every job a trigger step contributes was found under exactly its own full name. */
  lemma TriggerJobsMatchExactly(publishers: seq<Publisher>, findNearest: string -> Option<Job>)
    ensures TriggerJobs(publishers, findNearest).Ok? ==>
              forall j :: j in TriggerJobs(publishers, findNearest).value ==> MatchesExactly(findNearest, j)
  {
    var r := TriggerJobs(publishers, findNearest);
    if r.Ok? {
      forall j | j in r.value
        ensures MatchesExactly(findNearest, j)
      {
        var k :| 0 <= k < |publishers| && j in PublisherJobs(publishers[k], findNearest).value;
        match publishers[k]
        case PostBuildScript(steps) =>
          var m :| 0 <= m < |steps| && j in StepJobs(steps[m], findNearest).value;
          match steps[m]
          case ConditionalBuilder(nested) =>
            var n :| 0 <= n < |nested| && j in NestedStepJobs(nested[n], findNearest).value;
            var c :| 0 <= c < |nested[n].configs| && j in ConfigJobs(nested[n].configs[c], findNearest).value;
          case TriggerBuilder(configs) =>
            var c :| 0 <= c < |configs| && j in ConfigJobs(configs[c], findNearest).value;
        case OtherPublisher =>
      }
    }
  }

  /** `getDownstreamProjects(project)`: the edge list of one job. */
  function DownstreamProjects(h: Host, project: Job): (r: Result<seq<Job>, Fault>)
    ensures var all := ResolverOutputs(h, project);
            var k := |h.downstreamOf(project)|;
            r.Ok? <==> k <= |all| && TriggerJobs(h.publishersOf(project), h.findNearest).Ok?
    ensures var all := ResolverOutputs(h, project);
            var k := |h.downstreamOf(project)|;
            r.Ok? ==> r.value == all[..|all| - k] + TriggerJobs(h.publishersOf(project), h.findNearest).value + all[|all| - k..]
  {
    var result := ResolverOutputs(h, project);
    var k := |h.downstreamOf(project)|;
    match PopLast(result, [], k)
    case Err(e) => Err(e)
    case Ok(removed) =>
      match TriggerJobs(h.publishersOf(project), h.findNearest)
      case Err(e) => Err(e)
      case Ok(triggered) =>
        var kept := removed.0;
        var downstreamList := removed.1;
        ReaddKeepsOrder(result, k, triggered, kept, downstreamList);
        if |downstreamList| > 0 then Ok(kept + triggered + Reverse(downstreamList))
        else Ok(kept + triggered)
  }

  /** Re-adding the reversed pops restores the popped block in its original order. */
  lemma ReaddKeepsOrder(result: seq<Job>, k: nat, triggered: seq<Job>, kept: seq<Job>, downstreamList: seq<Job>)
    requires k <= |result|
    requires kept == result[..|result| - k]
    requires downstreamList == Reverse(result[|result| - k..])
    ensures |downstreamList| > 0 ==> kept + triggered + Reverse(downstreamList) == kept + triggered + result[|result| - k..]
    ensures |downstreamList| == 0 ==> kept + triggered == kept + triggered + result[|result| - k..]
  {
    ReverseReverse(result[|result| - k..]);
  }

  // ===========================================================================
  // getAllDownstreamProjects

  /** The edge list `getDownstreamProjects` returns for each job of the registry;
      a job missing from the map has no downstream jobs. */
  type Graph = map<Job, seq<Job>>

  function Edges(g: Graph, j: Job): seq<Job> {
    if j in g then g[j] else []
  }

  /** Every job the graph mentions: the finite universe the walk runs in. */
  ghost function Jobs(g: Graph): set<Job> {
    g.Keys + set j, i | j in g && 0 <= i < |g[j]| :: g[j][i]
  }

  ghost function Elements(s: seq<Job>): set<Job> {
    set x | x in s
  }

  lemma EdgeInJobs(g: Graph, from: Job, i: nat)
    requires i < |Edges(g, from)|
    ensures Edges(g, from)[i] in Jobs(g)
  {
    assert from in g;
  }

  /** There is a last job and `j` has its full name: the walk stops there. */
  predicate IsLast(last: Option<Job>, j: Job) {
    last.Some? && j.fullName == last.value.fullName
  }

  /** One call of the recursive `getAllDownstreamProjects(first, last, projects)` with
      a non-null `first`. `projects` is the insertion-ordered map, keyed by full
      name, that the recursion threads through. */
  function Visit(g: Graph, first: Job, last: Option<Job>, projects: seq<Job>): (r: seq<Job>)
    ensures projects <= r
    ensures first in r
    ensures first in projects ==> r == projects
    ensures first !in projects ==> |r| > |projects| && r[|projects|] == first
    ensures first !in projects && IsLast(last, first) ==> r == projects + [first]
    ensures Distinct(projects) ==> Distinct(r)
    decreases Jobs(g) + {first} - Elements(projects), 0
  {
    if first in projects then projects
    else if IsLast(last, first) then projects + [last.value]
    else
      assert Elements(projects + [first]) == Elements(projects) + {first};
      VisitDownstream(g, first, 0, last, projects + [first])
  }

  /** The loop over `getDownstreamProjects(from)`, from its `i`-th element on. */
  function VisitDownstream(g: Graph, from: Job, i: nat, last: Option<Job>, projects: seq<Job>): (r: seq<Job>)
    requires i <= |Edges(g, from)|
    ensures projects <= r
    ensures forall t :: i <= t < |Edges(g, from)| ==> Edges(g, from)[t] in r
    ensures Distinct(projects) ==> Distinct(r)
    decreases Jobs(g) - Elements(projects), 1, |Edges(g, from)| - i
  {
    if i == |Edges(g, from)| then projects
    else
      EdgeInJobs(g, from, i);
      var mid := Visit(g, Edges(g, from)[i], last, projects);
      assert Elements(projects) <= Elements(mid);
      VisitDownstream(g, from, i + 1, last, mid)
  }

  /** The three-argument `getAllDownstreamProjects(first, last, projects)`. */
  function AddAllDownstreamProjects(g: Graph, first: Option<Job>, last: Option<Job>, projects: seq<Job>): (r: seq<Job>)
    ensures projects <= r
    ensures first.None? || first.value in projects ==> r == projects
    ensures first.Some? ==> first.value in r
    ensures Distinct(projects) ==> Distinct(r)
  {
    if first.None? then projects else Visit(g, first.value, last, projects)
  }

  /** The two-argument `getAllDownstreamProjects(first, last)`: starts from an empty map. */
  function GetAllDownstreamProjects(g: Graph, first: Option<Job>, last: Option<Job>): (r: seq<Job>)
    ensures Distinct(r)
    ensures first.None? <==> r == []
    ensures first.Some? ==> r[0] == first.value
  {
    AddAllDownstreamProjects(g, first, last, [])
  }

  // ---------------------------------------------------------------------------
  // Reachability and closure

  /** A walk along downstream edges that never leaves the last job: every job on it
      but the final one differs from `last`. */
  ghost predicate Path(g: Graph, last: Option<Job>, p: seq<Job>) {
    && |p| > 0
    && forall k :: 0 <= k < |p| - 1 ==> !IsLast(last, p[k]) && p[k + 1] in Edges(g, p[k])
  }

  ghost predicate Reachable(g: Graph, last: Option<Job>, from: Job, to: Job) {
    exists p :: Path(g, last, p) && p[0] == from && p[|p| - 1] == to
  }

  /** Every job added at or after position `n` that is not the last job has all its
      downstream jobs in `r`. */
  ghost predicate ClosedFrom(g: Graph, last: Option<Job>, r: seq<Job>, n: nat) {
    forall k :: n <= k < |r| && !IsLast(last, r[k]) ==> forall s :: s in Edges(g, r[k]) ==> s in r
  }

  lemma ReachStep(g: Graph, last: Option<Job>, a: Job, b: Job, c: Job)
    requires !IsLast(last, a) && b in Edges(g, a)
    requires Reachable(g, last, b, c)
    ensures Reachable(g, last, a, c)
  {
    var p :| Path(g, last, p) && p[0] == b && p[|p| - 1] == c;
    var q := [a] + p;
    assert forall k :: 1 <= k < |q| ==> q[k] == p[k - 1];
    assert Path(g, last, q);
  }

  lemma {:induction false} VisitClosed(g: Graph, first: Job, last: Option<Job>, projects: seq<Job>)
    ensures ClosedFrom(g, last, Visit(g, first, last, projects), |projects|)
    decreases Jobs(g) + {first} - Elements(projects), 0
  {
    if first !in projects && !IsLast(last, first) {
      var p1 := projects + [first];
      assert Elements(p1) == Elements(projects) + {first};
      VisitDownstreamClosed(g, first, 0, last, p1);
    }
  }

  lemma {:induction false} VisitDownstreamClosed(g: Graph, from: Job, i: nat, last: Option<Job>, projects: seq<Job>)
    requires i <= |Edges(g, from)|
    ensures ClosedFrom(g, last, VisitDownstream(g, from, i, last, projects), |projects|)
    decreases Jobs(g) - Elements(projects), 1, |Edges(g, from)| - i
  {
    if i < |Edges(g, from)| {
      EdgeInJobs(g, from, i);
      var mid := Visit(g, Edges(g, from)[i], last, projects);
      assert Elements(projects) <= Elements(mid);
      var r := VisitDownstream(g, from, i + 1, last, mid);
      VisitClosed(g, Edges(g, from)[i], last, projects);
      VisitDownstreamClosed(g, from, i + 1, last, mid);
      forall k | |projects| <= k < |r| && !IsLast(last, r[k])
        ensures forall s :: s in Edges(g, r[k]) ==> s in r
      {
        if k < |mid| {
          assert r[k] == mid[k];
          forall s | s in Edges(g, r[k])
            ensures s in r
          {
            var m :| 0 <= m < |mid| && mid[m] == s;
            assert r[m] == s;
          }
        }
      }
    }
  }

  /** `x` is reachable from one of the downstream jobs of `from`, at index `i` or later. */
  ghost predicate ReachableFromEdge(g: Graph, last: Option<Job>, from: Job, i: nat, x: Job) {
    exists t :: i <= t < |Edges(g, from)| && Reachable(g, last, Edges(g, from)[t], x)
  }

  /** Every job of `r` from position `n` on is reachable from a downstream job of
      `from` at index `i` or later. */
  ghost predicate ReachableFromEdges(g: Graph, last: Option<Job>, from: Job, i: nat, r: seq<Job>, n: nat) {
    forall k :: n <= k < |r| ==> ReachableFromEdge(g, last, from, i, r[k])
  }

  lemma ReachableFromItself(g: Graph, last: Option<Job>, x: Job)
    ensures Reachable(g, last, x, x)
  {
    assert Path(g, last, [x]);
  }

  /** Every job of `r` from position `n` on is reachable from `first`. */
  ghost predicate ReachableFrom(g: Graph, last: Option<Job>, first: Job, r: seq<Job>, n: nat) {
    forall k :: n <= k < |r| ==> Reachable(g, last, first, r[k])
  }

  lemma {:induction false} VisitReach(g: Graph, first: Job, last: Option<Job>, projects: seq<Job>)
    ensures ReachableFrom(g, last, first, Visit(g, first, last, projects), |projects|)
    decreases Jobs(g) + {first} - Elements(projects), 0
  {
    var r := Visit(g, first, last, projects);
    if first !in projects {
      ReachableFromItself(g, last, first);
      assert r[|projects|] == first;
      if !IsLast(last, first) {
        var p1 := projects + [first];
        assert Elements(p1) == Elements(projects) + {first};
        assert r == VisitDownstream(g, first, 0, last, p1);
        VisitDownstreamReach(g, first, 0, last, p1);
        forall k | |projects| <= k < |r|
          ensures Reachable(g, last, first, r[k])
        {
          if k > |projects| {
            assert ReachableFromEdges(g, last, first, 0, r, |p1|);
            assert ReachableFromEdge(g, last, first, 0, r[k]);
            var t :| 0 <= t < |Edges(g, first)| && Reachable(g, last, Edges(g, first)[t], r[k]);
            ReachStep(g, last, first, Edges(g, first)[t], r[k]);
          }
        }
      }
    }
  }

  lemma {:induction false} VisitDownstreamReach(g: Graph, from: Job, i: nat, last: Option<Job>, projects: seq<Job>)
    requires i <= |Edges(g, from)|
    ensures ReachableFromEdges(g, last, from, i, VisitDownstream(g, from, i, last, projects), |projects|)
    decreases Jobs(g) - Elements(projects), 1, |Edges(g, from)| - i
  {
    if i < |Edges(g, from)| {
      EdgeInJobs(g, from, i);
      var mid := Visit(g, Edges(g, from)[i], last, projects);
      assert Elements(projects) <= Elements(mid);
      var r := VisitDownstream(g, from, i + 1, last, mid);
      assert r == VisitDownstream(g, from, i, last, projects);
      VisitReach(g, Edges(g, from)[i], last, projects);
      VisitDownstreamReach(g, from, i + 1, last, mid);
      forall k | |projects| <= k < |r|
        ensures ReachableFromEdge(g, last, from, i, r[k])
      {
        if k < |mid| {
          assert ReachableFrom(g, last, Edges(g, from)[i], mid, |projects|);
          assert Reachable(g, last, Edges(g, from)[i], mid[k]);
          assert r[k] == mid[k];
        } else {
          assert ReachableFromEdges(g, last, from, i + 1, r, |mid|);
          assert ReachableFromEdge(g, last, from, i + 1, r[k]);
          var t :| i + 1 <= t < |Edges(g, from)| && Reachable(g, last, Edges(g, from)[t], r[k]);
        }
      }
    }
  }

  // ---------------------------------------------------------------------------
  // Depth-first order

  /** The first job of `es` that is not in `seen`. */
  function FirstNotIn(es: seq<Job>, seen: seq<Job>): (r: Option<Job>)
    ensures r.Some? ==> r.value in es && r.value !in seen
    ensures r.None? ==> forall e :: e in es ==> e in seen
    decreases |es|
  {
    if |es| == 0 then None
    else if es[0] !in seen then Some(es[0])
    else FirstNotIn(es[1..], seen)
  }

  /** `j` is expanded by the walk and has a downstream job outside `seen`: its loop
      over `getDownstreamProjects` still has a job to descend into. */
  ghost predicate Open(g: Graph, last: Option<Job>, j: Job, seen: seq<Job>) {
    !IsLast(last, j) && FirstNotIn(Edges(g, j), seen).Some?
  }

  /** The position of the deepest open job among `seen[lo..hi]`: after a dead end
      the walk returns to the loop of that job, the innermost unfinished call. */
  ghost function Deepest(g: Graph, last: Option<Job>, seen: seq<Job>, lo: nat, hi: nat): (m: Option<nat>)
    requires hi <= |seen|
    ensures m.Some? ==> lo <= m.value < hi && Open(g, last, seen[m.value], seen)
    ensures m.Some? ==> forall t :: m.value < t < hi ==> !Open(g, last, seen[t], seen)
    ensures m.None? ==> forall t :: lo <= t < hi ==> !Open(g, last, seen[t], seen)
    decreases hi
  {
    if hi <= lo then None
    else if Open(g, last, seen[hi - 1], seen) then Some(hi - 1)
    else Deepest(g, last, seen, lo, hi - 1)
  }

  /** The job after position `k` is the first uncollected downstream job of the
      deepest open job among `r[lo..k + 1]`, and there is one: the walk descends
      from the job just added when it can, and otherwise resumes the innermost
      call whose loop is unfinished. */
  ghost predicate DepthFirstAt(g: Graph, last: Option<Job>, r: seq<Job>, lo: nat, k: nat)
    requires k + 1 < |r|
  {
    var seen := r[..k + 1];
    var m := Deepest(g, last, seen, lo, k + 1);
    m.Some? && r[k + 1] == FirstNotIn(Edges(g, seen[m.value]), seen).value
  }

  /** Every job after position `n` follows as the depth-first preorder of the calls
      started at position `lo` demands. */
  ghost predicate DepthFirstFrom(g: Graph, last: Option<Job>, r: seq<Job>, lo: nat, n: nat) {
    forall k :: n <= k && k + 1 < |r| ==> DepthFirstAt(g, last, r, lo, k)
  }

  /** No job of `r` is left open: a depth-first listing that stops here is complete. */
  ghost predicate Finished(g: Graph, last: Option<Job>, r: seq<Job>) {
    Deepest(g, last, r, 0, |r|).None?
  }

  /** A step of a nested call is a step of its caller: `DepthFirstAt` only looks at
      `r[..k + 2]`, and a deeper open job hides the shallower ones. */
  lemma DepthFirstAtInCaller(g: Graph, last: Option<Job>, mid: seq<Job>, r: seq<Job>, s: nat, lo: nat, k: nat)
    requires mid <= r && k + 1 < |mid| && s <= lo
    requires DepthFirstAt(g, last, mid, lo, k)
    ensures DepthFirstAt(g, last, r, s, k)
  {
    assert r[..k + 1] == mid[..k + 1] && r[k + 1] == mid[k + 1];
  }

  /** With every earlier edge collected, the first uncollected one is edge `i`. */
  lemma {:induction false} FirstNotInAt(es: seq<Job>, seen: seq<Job>, i: nat)
    requires i < |es| && es[i] !in seen
    requires forall t :: 0 <= t < i ==> es[t] in seen
    ensures FirstNotIn(es, seen) == Some(es[i])
    decreases i
  {
    if i > 0 {
      assert es[0] in seen;
      FirstNotInAt(es[1..], seen, i - 1);
    }
  }

  /** A job without a successor outside `seen` is not open. */
  lemma ClosedIsNotOpen(g: Graph, last: Option<Job>, j: Job, seen: seq<Job>)
    requires forall e :: e in Edges(g, j) ==> e in seen
    ensures !Open(g, last, j, seen)
  {
  }

  /** When the loop of `seen[s]` reaches an uncollected edge `i` and every later job
      is finished, `seen[s]` is the deepest open job and edge `i` comes next. */
  lemma ResumeInOwner(g: Graph, last: Option<Job>, seen: seq<Job>, s: nat, i: nat)
    requires s < |seen| && !IsLast(last, seen[s])
    requires i < |Edges(g, seen[s])| && Edges(g, seen[s])[i] !in seen
    requires forall t :: 0 <= t < i ==> Edges(g, seen[s])[t] in seen
    requires ClosedFrom(g, last, seen, s + 1)
    ensures FirstNotIn(Edges(g, seen[s]), seen) == Some(Edges(g, seen[s])[i])
    ensures Deepest(g, last, seen, s, |seen|) == Some(s)
  {
    FirstNotInAt(Edges(g, seen[s]), seen, i);
    forall t | s < t < |seen|
      ensures !Open(g, last, seen[t], seen)
    {
      if !IsLast(last, seen[t]) {
        ClosedIsNotOpen(g, last, seen[t], seen);
      }
    }
  }

  /** Jobs finished before stay finished when the map grows. */
  lemma ClosedGrows(g: Graph, last: Option<Job>, projects: seq<Job>, mid: seq<Job>, n: nat)
    requires projects <= mid && n <= |projects|
    requires ClosedFrom(g, last, projects, n) && ClosedFrom(g, last, mid, |projects|)
    ensures ClosedFrom(g, last, mid, n)
  {
    forall k | n <= k < |mid| && !IsLast(last, mid[k])
      ensures forall e :: e in Edges(g, mid[k]) ==> e in mid
    {
      if k < |projects| {
        assert mid[k] == projects[k];
        forall e | e in Edges(g, mid[k])
          ensures e in mid
        {
          var t :| 0 <= t < |projects| && projects[t] == e;
          assert mid[t] == e;
        }
      }
    }
  }

  /** The loop over the downstream jobs of `from` from index `i` on adds the first
      of them that is not yet collected first. */
  lemma {:induction false} VisitDownstreamHead(g: Graph, from: Job, i: nat, last: Option<Job>, projects: seq<Job>)
    requires i <= |Edges(g, from)|
    ensures var e := FirstNotIn(Edges(g, from)[i..], projects);
            var r := VisitDownstream(g, from, i, last, projects);
            e.Some? ==> |r| > |projects| && r[|projects|] == e.value
    decreases |Edges(g, from)| - i
  {
    var es := Edges(g, from);
    if i < |es| {
      assert es[i..][0] == es[i] && es[i..][1..] == es[i + 1..];
      EdgeInJobs(g, from, i);
      var mid := Visit(g, es[i], last, projects);
      assert VisitDownstream(g, from, i, last, projects) == VisitDownstream(g, from, i + 1, last, mid);
      if es[i] in projects {
        assert mid == projects;
        VisitDownstreamHead(g, from, i + 1, last, projects);
      }
    }
  }

  lemma {:induction false} VisitDepthFirst(g: Graph, first: Job, last: Option<Job>, projects: seq<Job>)
    ensures DepthFirstFrom(g, last, Visit(g, first, last, projects), |projects|, |projects|)
    decreases Jobs(g) + {first} - Elements(projects), 0
  {
    if first !in projects && !IsLast(last, first) {
      var p1 := projects + [first];
      assert Elements(p1) == Elements(projects) + {first};
      assert Visit(g, first, last, projects) == VisitDownstream(g, first, 0, last, p1);
      VisitDownstreamDepthFirst(g, first, 0, last, p1, |projects|);
    }
  }

  /** The loop of the call for `from`, which sits at position `s` with every later
      job finished, continues the depth-first preorder of that call. */
  lemma {:induction false} VisitDownstreamDepthFirst(g: Graph, from: Job, i: nat, last: Option<Job>, projects: seq<Job>, s: nat)
    requires i <= |Edges(g, from)|
    requires s < |projects| && projects[s] == from && !IsLast(last, from)
    requires forall t :: 0 <= t < i ==> Edges(g, from)[t] in projects
    requires ClosedFrom(g, last, projects, s + 1)
    ensures DepthFirstFrom(g, last, VisitDownstream(g, from, i, last, projects), s, |projects| - 1)
    decreases Jobs(g) - Elements(projects), 1, |Edges(g, from)| - i
  {
    var es := Edges(g, from);
    if i < |es| {
      EdgeInJobs(g, from, i);
      var mid := Visit(g, es[i], last, projects);
      assert Elements(projects) <= Elements(mid);
      var r := VisitDownstream(g, from, i + 1, last, mid);
      assert r == VisitDownstream(g, from, i, last, projects);
      VisitDepthFirst(g, es[i], last, projects);
      VisitClosed(g, es[i], last, projects);
      ClosedGrows(g, last, projects, mid, s + 1);
      assert mid[s] == from;
      VisitDownstreamDepthFirst(g, from, i + 1, last, mid, s);
      LoopStepDepthFirst(g, last, projects, mid, r, s, i);
    }
  }

  /** One turn of the loop of `projects[s]` at edge `i`: the nested call's block
      `mid[|projects|..]` and the rest of the loop `r[|mid|..]` join up. */
  lemma LoopStepDepthFirst(g: Graph, last: Option<Job>, projects: seq<Job>, mid: seq<Job>, r: seq<Job>, s: nat, i: nat)
    requires projects <= mid <= r && s < |projects| && !IsLast(last, projects[s])
    requires i < |Edges(g, projects[s])| && forall t :: 0 <= t < i ==> Edges(g, projects[s])[t] in projects
    requires ClosedFrom(g, last, projects, s + 1)
    requires |mid| > |projects| ==> Edges(g, projects[s])[i] !in projects && mid[|projects|] == Edges(g, projects[s])[i]
    requires DepthFirstFrom(g, last, mid, |projects|, |projects|)
    requires DepthFirstFrom(g, last, r, s, |mid| - 1)
    ensures DepthFirstFrom(g, last, r, s, |projects| - 1)
  {
    forall k | |projects| - 1 <= k && k + 1 < |r|
      ensures DepthFirstAt(g, last, r, s, k)
    {
      if k + 1 < |mid| {
        if k + 1 == |projects| {
          ResumeInOwner(g, last, projects, s, i);
          assert r[..k + 1] == projects && r[k + 1] == mid[k + 1];
        } else {
          DepthFirstAtInCaller(g, last, mid, r, s, |projects|, k);
        }
      }
    }
  }

  /** A closed listing is finished. */
  lemma ClosedIsFinished(g: Graph, last: Option<Job>, r: seq<Job>)
    requires ClosedFrom(g, last, r, 0)
    ensures Finished(g, last, r)
  {
    forall t | 0 <= t < |r|
      ensures !Open(g, last, r[t], r)
    {
      if !IsLast(last, r[t]) {
        ClosedIsNotOpen(g, last, r[t], r);
      }
    }
  }

  /** `getAllDownstreamProjects` lists the jobs in depth-first preorder: after each
      job comes the first uncollected downstream job of the innermost unfinished
      call, and when the walk stops no collected job is left with one. */
  lemma AllDownstreamProjectsInDepthFirstOrder(g: Graph, first: Option<Job>, last: Option<Job>)
    ensures DepthFirstFrom(g, last, GetAllDownstreamProjects(g, first, last), 0, 0)
    ensures Finished(g, last, GetAllDownstreamProjects(g, first, last))
  {
    if first.Some? {
      VisitDepthFirst(g, first.value, last, []);
      VisitClosed(g, first.value, last, []);
      ClosedIsFinished(g, last, GetAllDownstreamProjects(g, first, last));
    }
  }

  /** Two depth-first listings from the same first job agree on every common position. */
  lemma {:induction false} DepthFirstSamePrefix(g: Graph, last: Option<Job>, r1: seq<Job>, r2: seq<Job>, k: nat)
    requires k < |r1| && k < |r2| && r1[0] == r2[0]
    requires DepthFirstFrom(g, last, r1, 0, 0) && DepthFirstFrom(g, last, r2, 0, 0)
    ensures r1[..k + 1] == r2[..k + 1]
    decreases k
  {
    if k > 0 {
      DepthFirstSamePrefix(g, last, r1, r2, k - 1);
      assert DepthFirstAt(g, last, r1, 0, k - 1) && DepthFirstAt(g, last, r2, 0, k - 1);
      assert r1[k] == r2[k];
      assert r1[..k + 1] == r1[..k] + [r1[k]] && r2[..k + 1] == r2[..k] + [r2[k]];
    } else {
      assert r1[..1] == [r1[0]] && r2[..1] == [r2[0]];
    }
  }

  /** A depth-first listing that stops before its end stops at an open job. */
  lemma UnfinishedBeforeEnd(g: Graph, last: Option<Job>, r: seq<Job>, n: nat)
    requires 0 < n <= |r| && DepthFirstFrom(g, last, r, 0, 0)
    ensures n < |r| ==> Deepest(g, last, r[..n], 0, n).Some?
  {
    if n < |r| {
      assert DepthFirstAt(g, last, r, 0, n - 1);
    }
  }

  /** There is only one complete depth-first listing from a given first job. */
  lemma DepthFirstOrderIsUnique(g: Graph, last: Option<Job>, r1: seq<Job>, r2: seq<Job>)
    requires |r1| > 0 && |r2| > 0 && r1[0] == r2[0]
    requires DepthFirstFrom(g, last, r1, 0, 0) && DepthFirstFrom(g, last, r2, 0, 0)
    requires Finished(g, last, r1) && Finished(g, last, r2)
    ensures r1 == r2
  {
    var n := if |r1| <= |r2| then |r1| else |r2|;
    DepthFirstSamePrefix(g, last, r1, r2, n - 1);
    UnfinishedBeforeEnd(g, last, r1, n);
    UnfinishedBeforeEnd(g, last, r2, n);
    assert r1[..|r1|] == r1 && r2[..|r2|] == r2;
    assert |r1| == |r2|;
  }

  /** The walk from `first` is exactly the complete depth-first listing from
      `first`: any list with these two properties is its result. */
  lemma AllDownstreamProjectsAreTheDepthFirstOrder(g: Graph, first: Job, last: Option<Job>, r: seq<Job>)
    requires |r| > 0 && r[0] == first
    requires DepthFirstFrom(g, last, r, 0, 0) && Finished(g, last, r)
    ensures r == GetAllDownstreamProjects(g, Some(first), last)
  {
    AllDownstreamProjectsInDepthFirstOrder(g, Some(first), last);
    DepthFirstOrderIsUnique(g, last, r, GetAllDownstreamProjects(g, Some(first), last));
  }

  lemma {:induction false} PathStaysInClosed(g: Graph, last: Option<Job>, r: seq<Job>, p: seq<Job>)
    requires ClosedFrom(g, last, r, 0)
    requires Path(g, last, p) && p[0] in r
    ensures p[|p| - 1] in r
    decreases |p|
  {
    if |p| > 1 {
      var k :| 0 <= k < |r| && r[k] == p[0];
      assert p[1] in Edges(g, r[k]);
      var q := p[1..];
      assert forall m :: 0 <= m < |q| ==> q[m] == p[m + 1];
      assert Path(g, last, q);
      PathStaysInClosed(g, last, r, q);
    }
  }

  /** The walk from `first` collects exactly the jobs reachable from it along
      downstream edges without passing through the last job: the last job itself
      is collected when reached, but nothing is explored beyond it, and cycles
      neither repeat a job nor stop the walk early. */
  lemma AllDownstreamProjectsAreReachable(g: Graph, first: Job, last: Option<Job>)
    ensures forall x :: x in GetAllDownstreamProjects(g, Some(first), last) <==> Reachable(g, last, first, x)
  {
    var r := GetAllDownstreamProjects(g, Some(first), last);
    assert r == Visit(g, first, last, []);
    VisitReach(g, first, last, []);
    VisitClosed(g, first, last, []);
    forall x | x in r
      ensures Reachable(g, last, first, x)
    {
      var k :| 0 <= k < |r| && r[k] == x;
    }
    forall x | Reachable(g, last, first, x)
      ensures x in r
    {
      var p :| Path(g, last, p) && p[0] == first && p[|p| - 1] == x;
      PathStaysInClosed(g, last, r, p);
    }
  }

  /** A job collected by the walk that is not the last job has all of its
      downstream jobs collected too. */
  lemma AllDownstreamProjectsAreClosed(g: Graph, first: Option<Job>, last: Option<Job>, projects: seq<Job>)
    ensures var r := AddAllDownstreamProjects(g, first, last, projects);
            forall k :: |projects| <= k < |r| && !IsLast(last, r[k]) ==> forall s :: s in Edges(g, r[k]) ==> s in r
  {
    if first.Some? {
      VisitClosed(g, first.value, last, projects);
    }
  }

  /** Every job the walk adds to a non-empty map is reachable from `first` without
      passing through the last job. */
  lemma AddedProjectsAreReachable(g: Graph, first: Job, last: Option<Job>, projects: seq<Job>)
    ensures var r := AddAllDownstreamProjects(g, Some(first), last, projects);
            forall k :: |projects| <= k < |r| ==> Reachable(g, last, first, r[k])
  {
    assert AddAllDownstreamProjects(g, Some(first), last, projects) == Visit(g, first, last, projects);
    VisitReach(g, first, last, projects);
  }

  // ===========================================================================
  // getProjects

  /** `Pattern.compile(regExp)`, seen through what `getProjects` asks of it: whether
      the name has a match (`matcher.find()`), the number of capture groups, and
      the text of group 1. */
  datatype Pattern =
    | InvalidPattern  // PatternSyntaxException
    | Compiled(groupCount: nat, find: string -> bool, group1: string -> string)

  /** The component name a job yields, if any: it must match and the pattern must
      have a group to capture. */
  function Capture(p: Pattern, j: Job): Option<string> {
    if p.Compiled? && p.find(j.fullName) && p.groupCount >= 1 then Some(p.group1(j.fullName)) else None
  }

  /** `getProjects(regExp)` over the registry's jobs `items`, in iteration order:
      each capture is mapped to the job that yielded it, later jobs overwriting
      earlier ones. */
  function GetProjects(p: Pattern, items: seq<Job>): (r: map<string, Job>)
    ensures p.InvalidPattern? || p.groupCount == 0 ==> r == map[]
    ensures forall k :: k in r ==> r[k] in items && Capture(p, r[k]) == Some(k)
  {
    match p
    case InvalidPattern => map[]
    case Compiled(groupCount, find, group1) =>
      if |items| == 0 then map[]
      else
        var r := GetProjects(p, items[..|items| - 1]);
        var j := items[|items| - 1];
        if find(j.fullName) && groupCount >= 1 then r[group1(j.fullName) := j] else r
  }

  /** One step of the fold: the last job's capture, if any, is put into the map built
      from the jobs before it. */
  lemma GetProjectsStep(p: Pattern, items: seq<Job>)
    requires |items| > 0
    ensures var init := GetProjects(p, items[..|items| - 1]);
            var j := items[|items| - 1];
            GetProjects(p, items) == (if Capture(p, j).Some? then init[Capture(p, j).value := j] else init)
  {
  }

  /** Every key is the capture of some job. */
  lemma {:induction false} GetProjectsKeysCaptured(p: Pattern, items: seq<Job>, k: string)
    requires k in GetProjects(p, items)
    ensures exists i :: 0 <= i < |items| && Capture(p, items[i]) == Some(k)
    decreases |items|
  {
    var n := |items| - 1;
    var init := items[..n];
    GetProjectsStep(p, items);
    if Capture(p, items[n]) != Some(k) {
      assert k in GetProjects(p, init);
      GetProjectsKeysCaptured(p, init, k);
      var i :| 0 <= i < n && Capture(p, init[i]) == Some(k);
      assert items[i] == init[i];
    }
  }

  /** Every capture of a job is a key. */
  lemma {:induction false} GetProjectsCaptureIsKey(p: Pattern, items: seq<Job>, i: nat)
    requires i < |items| && Capture(p, items[i]).Some?
    ensures Capture(p, items[i]).value in GetProjects(p, items)
    decreases |items|
  {
    var n := |items| - 1;
    var init := items[..n];
    GetProjectsStep(p, items);
    if i < n {
      assert init[i] == items[i];
      GetProjectsCaptureIsKey(p, init, i);
    }
  }

  /** The captured names are exactly the keys. */
  lemma GetProjectsKeys(p: Pattern, items: seq<Job>)
    ensures forall k :: k in GetProjects(p, items) <==> exists i :: 0 <= i < |items| && Capture(p, items[i]) == Some(k)
  {
    forall k | k in GetProjects(p, items)
      ensures exists i :: 0 <= i < |items| && Capture(p, items[i]) == Some(k)
    {
      GetProjectsKeysCaptured(p, items, k);
    }
    forall k, i | 0 <= i < |items| && Capture(p, items[i]) == Some(k)
      ensures k in GetProjects(p, items)
    {
      GetProjectsCaptureIsKey(p, items, i);
    }
  }

  /** When several jobs yield the same name, the map holds the LAST of them in
      iteration order. */
  lemma {:induction false} GetProjectsLastMatchWins(p: Pattern, items: seq<Job>, k: string, i: nat)
    requires i < |items| && Capture(p, items[i]) == Some(k)
    requires forall i2 :: i < i2 < |items| ==> Capture(p, items[i2]) != Some(k)
    ensures k in GetProjects(p, items) && GetProjects(p, items)[k] == items[i]
    decreases |items|
  {
    var n := |items| - 1;
    GetProjectsStep(p, items);
    if i < n {
      var init := items[..n];
      assert init[i] == items[i];
      forall i2 | i < i2 < |init|
        ensures Capture(p, init[i2]) != Some(k)
      {
        assert init[i2] == items[i2];
      }
      GetProjectsLastMatchWins(p, init, k, i);
    }
  }
}

=== FILE: stable_sort.dfy ===
/** `Collections.sort(list, comparator)`: a stable sort driven by a
    `java.util.Comparator`, and the contract a comparator must keep for the sort
    to be meaningful. The sort is written as an insertion sort; for a comparator
    that keeps the contract, every stable sort produces the same list. */
module StableSort {

  /** `Integer.signum`. */
  function Sign(x: int): int {
    if x < 0 then -1 else if x > 0 then 1 else 0
  }

  /** sgn(compare(x, y)) == -sgn(compare(y, x)) for all x and y. */
  ghost predicate Antisymmetric<T(!new)>(cmp: (T, T) -> int) {
    forall x, y :: Sign(cmp(x, y)) == -Sign(cmp(y, x))
  }

  /** compare(x, y) > 0 and compare(y, z) > 0 imply compare(x, z) > 0. */
  ghost predicate Transitive<T(!new)>(cmp: (T, T) -> int) {
    forall x, y, z :: cmp(x, y) > 0 && cmp(y, z) > 0 ==> cmp(x, z) > 0
  }

  /** compare(x, y) == 0 implies sgn(compare(x, z)) == sgn(compare(y, z)) for all z. */
  ghost predicate ConsistentTies<T(!new)>(cmp: (T, T) -> int) {
    forall x, y, z :: cmp(x, y) == 0 ==> Sign(cmp(x, z)) == Sign(cmp(y, z))
  }

  /** The general contract of `Comparator.compare`. */
  ghost predicate IsComparator<T(!new)>(cmp: (T, T) -> int) {
    Antisymmetric(cmp) && Transitive(cmp) && ConsistentTies(cmp)
  }

  /** Every element compares at most equal to every later one. */
  ghost predicate Sorted<T>(cmp: (T, T) -> int, s: seq<T>) {
    forall i, j :: 0 <= i < j < |s| ==> cmp(s[i], s[j]) <= 0
  }

  /** "At most" is transitive under the comparator contract. */
  lemma AtMostTransitive<T(!new)>(cmp: (T, T) -> int, x: T, y: T, z: T)
    requires IsComparator(cmp)
    requires cmp(x, y) <= 0 && cmp(y, z) <= 0
    ensures cmp(x, z) <= 0
  {
  }

  /** Swapping the arguments flips the sign. */
  lemma Flip<T(!new)>(cmp: (T, T) -> int, x: T, y: T)
    requires Antisymmetric(cmp)
    ensures cmp(x, y) <= 0 <==> cmp(y, x) >= 0
    ensures cmp(x, y) < 0 <==> cmp(y, x) > 0
  {
    assert Sign(cmp(x, y)) == -Sign(cmp(y, x));
  }

  /** Places `x` after every element of `s` that is not greater than it. */
  function Insert<T>(cmp: (T, T) -> int, x: T, s: seq<T>): (r: seq<T>)
    ensures multiset(r) == multiset(s) + multiset{x}
    ensures |r| == |s| + 1
  {
    if |s| == 0 then [x]
    else if cmp(x, s[0]) < 0 then [x] + s
    else
      assert s == [s[0]] + s[1..];
      [s[0]] + Insert(cmp, x, s[1..])
  }

  /** The sorted list; it is a permutation of the input. */
  function Sort<T>(cmp: (T, T) -> int, s: seq<T>): (r: seq<T>)
    ensures multiset(r) == multiset(s)
    ensures |r| == |s|
  {
    if |s| == 0 then []
    else
      assert s == s[..|s| - 1] + [s[|s| - 1]];
      Insert(cmp, s[|s| - 1], Sort(cmp, s[..|s| - 1]))
  }

  /** Inserting before a smaller first element keeps the order. */
  lemma InsertAtFront<T(!new)>(cmp: (T, T) -> int, x: T, s: seq<T>)
    requires IsComparator(cmp) && Sorted(cmp, s)
    requires |s| > 0 && cmp(x, s[0]) < 0
    ensures Sorted(cmp, [x] + s)
  {
    var r := [x] + s;
    forall j | 0 < j < |r|
      ensures cmp(x, r[j]) <= 0
    {
      if j > 1 {
        AtMostTransitive(cmp, x, s[0], s[j - 1]);
      }
    }
  }

  /** An element of `Insert(cmp, x, s)` is `x` or an element of `s`. */
  lemma InsertElements<T>(cmp: (T, T) -> int, x: T, s: seq<T>, y: T)
    requires y in Insert(cmp, x, s)
    ensures y == x || y in s
  {
    assert y in multiset(Insert(cmp, x, s));
  }

  lemma {:induction false} InsertSorted<T(!new)>(cmp: (T, T) -> int, x: T, s: seq<T>)
    requires IsComparator(cmp) && Sorted(cmp, s)
    ensures Sorted(cmp, Insert(cmp, x, s))
    decreases |s|
  {
    if |s| > 0 {
      if cmp(x, s[0]) < 0 {
        InsertAtFront(cmp, x, s);
      } else {
        Flip(cmp, x, s[0]);
        var tail := s[1..];
        assert Sorted(cmp, tail);
        InsertSorted(cmp, x, tail);
        var rest := Insert(cmp, x, tail);
        var r := [s[0]] + rest;
        assert Insert(cmp, x, s) == r;
        forall j | 0 < j < |r|
          ensures cmp(s[0], r[j]) <= 0
        {
          assert r[j] == rest[j - 1];
          InsertElements(cmp, x, tail, r[j]);
          if r[j] != x {
            var m :| 0 <= m < |tail| && tail[m] == r[j];
            assert tail[m] == s[m + 1];
          }
        }
      }
    }
  }

  lemma {:induction false} SortIsSorted<T(!new)>(cmp: (T, T) -> int, s: seq<T>)
    requires IsComparator(cmp)
    ensures Sorted(cmp, Sort(cmp, s))
  {
    if |s| > 0 {
      SortIsSorted(cmp, s[..|s| - 1]);
      InsertSorted(cmp, s[|s| - 1], Sort(cmp, s[..|s| - 1]));
    }
  }

  /** A list that is already in order is left exactly as it is. */
  lemma {:induction false} SortKeepsSortedList<T(!new)>(cmp: (T, T) -> int, s: seq<T>)
    requires IsComparator(cmp) && Sorted(cmp, s)
    ensures Sort(cmp, s) == s
  {
    if |s| > 0 {
      var n := |s| - 1;
      var init := s[..n];
      assert Sorted(cmp, init);
      SortKeepsSortedList(cmp, init);
      forall i | 0 <= i < n
        ensures cmp(s[n], init[i]) >= 0
      {
        assert init[i] == s[i];
        assert cmp(s[i], s[n]) <= 0;
        Flip(cmp, s[i], s[n]);
      }
      InsertAtEnd(cmp, s[n], init);
      assert init + [s[n]] == s;
    }
  }

  /** The elements of `s` that compare equal to `x`, in their order in `s`. */
  function Ties<T>(cmp: (T, T) -> int, x: T, s: seq<T>): seq<T>
    decreases |s|
  {
    if |s| == 0 then []
    else (if cmp(x, s[0]) == 0 then [s[0]] else []) + Ties(cmp, x, s[1..])
  }

  lemma {:induction false} TiesAppend<T>(cmp: (T, T) -> int, x: T, a: seq<T>, b: seq<T>)
    ensures Ties(cmp, x, a + b) == Ties(cmp, x, a) + Ties(cmp, x, b)
    decreases |a|
  {
    if |a| == 0 {
      assert a + b == b;
    } else {
      var ab := a + b;
      assert ab[0] == a[0] && ab[1..] == a[1..] + b;
      TiesAppend(cmp, x, a[1..], b);
      var head := if cmp(x, a[0]) == 0 then [a[0]] else [];
      assert Ties(cmp, x, ab) == head + Ties(cmp, x, ab[1..]);
      assert Ties(cmp, x, a) == head + Ties(cmp, x, a[1..]);
    }
  }

  /** "Less" followed by "at most" is "less" under the comparator contract. */
  lemma LessThenAtMost<T(!new)>(cmp: (T, T) -> int, x: T, y: T, z: T)
    requires IsComparator(cmp)
    requires cmp(x, y) < 0 && cmp(y, z) <= 0
    ensures cmp(x, z) < 0
  {
    Flip(cmp, x, y);
    Flip(cmp, x, z);
    if cmp(y, z) == 0 {
      assert Sign(cmp(y, x)) == Sign(cmp(z, x));
    } else {
      Flip(cmp, y, z);
    }
  }

  /** Nothing in a sorted list that starts above `y` ties with something tied to `y`. */
  lemma {:induction false} NoTiesAbove<T(!new)>(cmp: (T, T) -> int, x: T, y: T, s: seq<T>)
    requires IsComparator(cmp) && Sorted(cmp, s)
    requires |s| > 0 && cmp(y, s[0]) < 0 && cmp(x, y) == 0
    ensures Ties(cmp, x, s) == []
    decreases |s|
  {
    assert cmp(x, s[0]) < 0 by {
      assert Sign(cmp(x, s[0])) == Sign(cmp(y, s[0]));
    }
    if |s| > 1 {
      var tail := s[1..];
      assert Sorted(cmp, tail);
      LessThenAtMost(cmp, y, s[0], s[1]);
      NoTiesAbove(cmp, x, y, tail);
    }
  }

  lemma TiesSingle<T>(cmp: (T, T) -> int, x: T, y: T)
    ensures Ties(cmp, x, [y]) == if cmp(x, y) == 0 then [y] else []
  {
    assert [y][1..] == [];
  }

  /** `y` goes in front: nothing after it ties with it. */
  lemma InsertTiesFront<T(!new)>(cmp: (T, T) -> int, x: T, y: T, s: seq<T>)
    requires IsComparator(cmp) && Sorted(cmp, s)
    requires |s| > 0 && cmp(y, s[0]) < 0
    ensures Ties(cmp, x, [y] + s) == Ties(cmp, x, s) + Ties(cmp, x, [y])
  {
    TiesAppend(cmp, x, [y], s);
    TiesSingle(cmp, x, y);
    if cmp(x, y) == 0 {
      NoTiesAbove(cmp, x, y, s);
    }
  }

  /** Inserting `y` into a sorted list puts it after every element it ties with. */
  lemma {:induction false} InsertTies<T(!new)>(cmp: (T, T) -> int, x: T, y: T, s: seq<T>)
    requires IsComparator(cmp) && Sorted(cmp, s)
    ensures Ties(cmp, x, Insert(cmp, y, s)) == Ties(cmp, x, s) + Ties(cmp, x, [y])
    decreases |s|
  {
    if |s| == 0 {
      assert Insert(cmp, y, s) == [y];
    } else if cmp(y, s[0]) < 0 {
      InsertTiesFront(cmp, x, y, s);
    } else {
      assert Sorted(cmp, s[1..]);
      InsertTies(cmp, x, y, s[1..]);
      assert Insert(cmp, y, s) == [s[0]] + Insert(cmp, y, s[1..]);
      TiesBehind(cmp, x, s, Insert(cmp, y, s[1..]), Ties(cmp, x, [y]));
    }
  }

  /** Keeping the first element in front keeps its ties in front. */
  lemma TiesBehind<T>(cmp: (T, T) -> int, x: T, s: seq<T>, rest: seq<T>, added: seq<T>)
    requires |s| > 0
    requires Ties(cmp, x, rest) == Ties(cmp, x, s[1..]) + added
    ensures Ties(cmp, x, [s[0]] + rest) == Ties(cmp, x, s) + added
  {
    var inserted := [s[0]] + rest;
    var head := if cmp(x, s[0]) == 0 then [s[0]] else [];
    assert inserted[0] == s[0] && inserted[1..] == rest;
    assert head + (Ties(cmp, x, s[1..]) + added) == (head + Ties(cmp, x, s[1..])) + added;
  }

  /** `Collections.sort` is stable: elements that compare equal keep their relative
      order, whatever element they tie with. */
  lemma {:induction false} SortIsStable<T(!new)>(cmp: (T, T) -> int, x: T, s: seq<T>)
    requires IsComparator(cmp)
    ensures Ties(cmp, x, Sort(cmp, s)) == Ties(cmp, x, s)
  {
    if |s| > 0 {
      var n := |s| - 1;
      var sortedInit := Sort(cmp, s[..n]);
      SortIsStable(cmp, x, s[..n]);
      SortIsSorted(cmp, s[..n]);
      InsertTies(cmp, x, s[n], sortedInit);
      assert Sort(cmp, s) == Insert(cmp, s[n], sortedInit);
      TiesOfLast(cmp, x, s, sortedInit, Insert(cmp, s[n], sortedInit));
    }
  }

  /** Ties of a list whose last element was added after the ties of the rest. */
  lemma TiesOfLast<T>(cmp: (T, T) -> int, x: T, s: seq<T>, init: seq<T>, whole: seq<T>)
    requires |s| > 0
    requires Ties(cmp, x, init) == Ties(cmp, x, s[..|s| - 1])
    requires Ties(cmp, x, whole) == Ties(cmp, x, init) + Ties(cmp, x, [s[|s| - 1]])
    ensures Ties(cmp, x, whole) == Ties(cmp, x, s)
  {
    var n := |s| - 1;
    TiesAppend(cmp, x, s[..n], [s[n]]);
    assert s[..n] + [s[n]] == s;
  }

  lemma {:induction false} InsertAtEnd<T>(cmp: (T, T) -> int, x: T, s: seq<T>)
    requires forall i :: 0 <= i < |s| ==> cmp(x, s[i]) >= 0
    ensures Insert(cmp, x, s) == s + [x]
  {
    if |s| > 0 {
      assert forall i :: 0 <= i < |s| - 1 ==> s[1..][i] == s[i + 1];
      InsertAtEnd(cmp, x, s[1..]);
      assert s == [s[0]] + s[1..];
    }
  }
}
